=== FILE: README.md ===
# Running median over two fixed-capacity heaps

This project models ArduinoRunningMedian in Dafny. The library computes the running
median of a stream of integer samples with two array-backed binary heaps:

- a max-heap (the "left" heap, ordered by `greaterOrEqual`) holds the lower half of the
  samples;
- a min-heap (the "right" heap, ordered by `lessOrEqual`) holds the upper half;
- a cached `median` routes each new sample to one side and is read off the two roots.

The model has five modules.

- `HeapUtils` (heap_utils.dfy): the shared helpers of arduino/HeapUtils.cpp and
  src/HeapUtils.cpp. These are the two comparators, `mean`, `signum`, `swap` and the
  index arithmetic. It also holds the constants `FLOAT_MIN` and `NOT_DEFINED`.
- `ArduinoHeap` (arduino_heap.dfy): the reference heap of arduino/Heap.cpp.
  - The state is an immutable `Heap` value: the slots, the comparator, `heapCurrentIndex`
    and `lastInsertedIndex`.
  - Each operation returns the new state.
  - The iterative `heapifyUp` and `heapifyDown` loops are methods with loop invariants.
- `RecursiveHeap` (recursive_heap.dfy): the older heap of src/Heap.cpp.
  - Its recursive sift-up `heapify(index)` is a function.
  - `add`, `poll`, `findAndUpdateElement` and `deleteLazy` are built on it.
  - It shares the state, `peek`, `size`, `find` and `reset` with the Arduino heap, whose
    code for them is identical.
- `SortedMedian` (median_spec.dfy): the classical median of a collection, defined by
  insertion sort. It is independent of the heaps and is the reference the engine is
  proved against.
- `RunningMedian` (running_median.dfy): the engine of src/RunningMedian.cpp, built on
  the Arduino heap.
  - `Inv` states the invariant the sample path keeps:
    - both heaps are ordered;
    - every left sample is at most every right sample;
    - the sizes differ by at most one;
    - the median equals what the roots give.
  - `MedianIsClassical` shows that, under `Inv`, this median is the classical median of
    all samples.
  - `Balanced` is `Inv` without the cached median, which `updateElement` leaves stale.
  - `Split` is `Balanced` without heap order: the separated halves and their sizes,
    which survive an `updateElement` from `Inv` that leaves a heap out of order.
  - `SizesClose` is the promise of src/RunningMedian.h:7 alone: equal capacities and
    sizes within one. Every engine operation keeps it, whatever the heap order or the
    stored median, so it holds through any sequence of updates.

Values are mathematical integers and the median is a `real`, so `mean` is exact. The
float sentinel `FLOAT_MIN` is an integer constant below every 32-bit sample.

- The heaps store it in unused slots.
- `deleteLazy` writes it into a live slot.
- `peek` and `poll` on an empty heap report `None`, which is the sentinel return value.

## Model

| member | source | states |
|---|---|---|
| HeapUtils.ComparatorsMirror | arduino/HeapUtils.cpp:31-45 | greaterOrEqual(a,b) holds iff a ≥ b and lessOrEqual(a,b) iff a ≤ b; each mirrors the other, both are reflexive, and each comparator is total and transitive |
| HeapUtils.Mean | arduino/HeapUtils.cpp:55-57 | the mean is equidistant from both arguments and lies between them |
| HeapUtils.MeanSymmetric | src/HeapUtils.cpp:55-57 | mean is symmetric in its arguments and mean(a, a) = a |
| HeapUtils.Signum | arduino/HeapUtils.cpp:69-73 | the result is 0 exactly when the sizes are equal, -1 exactly when the left is smaller, 1 exactly when the left is larger |
| HeapUtils.SignumAntisymmetric | src/HeapUtils.cpp:69-73 | signum(l, r) = -signum(r, l), and it only takes the values -1, 0 and 1 |
| HeapUtils.Swap | arduino/HeapUtils.cpp:81-85 | the two slots exchange their values, every other slot is unchanged, and the multiset of values is kept |
| HeapUtils.SwapInvolution | src/HeapUtils.cpp:81-85 | swapping the same two slots twice restores the array |
| HeapUtils.ParentIndex | arduino/HeapUtils.cpp:115-120 | NOT_DEFINED for indices ≤ 0; otherwise a smaller index whose left or right child is the given index |
| HeapUtils.ChildParentRoundTrip | arduino/HeapUtils.cpp:93-120 | the parent of the left and of the right child of p ≥ 0 is p |
| HeapUtils.HasParent | arduino/HeapUtils.cpp:128-130 | a slot has a parent exactly when its index is positive |
| ArduinoHeap.Size | arduino/Heap.cpp:140-142 | size() is never negative and never above the capacity |
| ArduinoHeap.New | arduino/Heap.cpp:47-54 | a fresh heap has the requested capacity and comparator, no live elements, no last-inserted index, and is trivially ordered |
| ArduinoHeap.RootIsExtreme | arduino/Heap.h:5-8 | in an ordered non-empty heap the root dominates every live element: the largest for a max-heap, the smallest for a min-heap |
| ArduinoHeap.Peek | arduino/Heap.cpp:109-115 | None exactly when empty; otherwise a live element, which dominates every live element when the heap is ordered |
| ArduinoHeap.SiftUp | arduino/Heap.cpp:178-184 | sifting slot k up permutes the first n slots, leaves the rest alone, and orders them if they were ordered except above k |
| ArduinoHeap.HeapifyUp | arduino/Heap.cpp:178-184 | sifting up the last live slot of a prefix that was ordered before it orders the whole prefix and permutes only it |
| ArduinoHeap.SiftDown | arduino/Heap.cpp:189-204 | sifting slot k down, with children counted only below the bound, permutes the slots below the bound, leaves the rest alone, and orders them if they were ordered except below k |
| ArduinoHeap.HeapifyDown | arduino/Heap.cpp:189-204 | sift-down from the root: the same guarantees with k = 0; a bound of at most 1 changes nothing |
| ArduinoHeap.Add | arduino/Heap.cpp:80-91 | succeeds exactly when the heap is not full; on failure nothing changes; on success the size grows by one, the last-inserted index is the new slot, the live multiset gains exactly the key, and heap order is kept |
| ArduinoHeap.Poll | arduino/Heap.cpp:123-133 | returns what peek() returns; leaves an empty heap unchanged; otherwise shrinks by one and removes exactly that element from the live multiset, keeping heap order and the last-inserted index |
| ArduinoHeap.PollAll | arduino/Heap.cpp:123-133 | polling an ordered heap until it is empty yields exactly its live multiset, in comparator order (non-increasing for a max-heap, non-decreasing for a min-heap) |
| ArduinoHeap.FindFrom | arduino/Heap.cpp:279-284 | the first index in [i, n) holding the element, or NOT_DEFINED exactly when there is none |
| ArduinoHeap.Find | arduino/Heap.cpp:279-284 | NOT_DEFINED exactly when the element is not live; otherwise the smallest live index holding it |
| ArduinoHeap.FindAndUpdateElement | arduino/Heap.cpp:213-222 | true exactly when the old element is live; false leaves the heap unchanged; true keeps the size and the last-inserted index, replaces one old by the new in the live multiset, and never moves the last live slot |
| ArduinoHeap.UpdateOfLastSlotLosesOrder | arduino/Heap.cpp:213-222 | a two-element max-heap whose last slot is raised above the root is no longer ordered after the update |
| ArduinoHeap.FindAndUpdateElementFixed | arduino/Heap.cpp:213-222 | the same result and multiset change as findAndUpdateElement, and heap order is kept |
| ArduinoHeap.LazyOverwrite | arduino/Heap.cpp:238-245 | copying the last-inserted slot over a live slot keeps the size and forgets the index; if the last-inserted slot is the last live one, the deleted element is replaced by FLOAT_MIN; if it lies beyond the live prefix, it is replaced by that dead slot's value |
| ArduinoHeap.DeleteLazy | arduino/Heap.cpp:230-248 | on an empty heap it reports true only for FLOAT_MIN and changes nothing; deleting the root acts as poll: it shrinks by one, removes the root, keeps heap order and keeps the last-inserted index; otherwise it succeeds exactly when the element is live and a last-inserted index is defined, keeps the size and forgets the index, with the FLOAT_MIN tombstone when the last-inserted slot is the last live one and the dead slot's value when it lies beyond; a failure changes nothing |
| ArduinoHeap.Reset | arduino/Heap.cpp:253-257 | the heap is empty, with no last-inserted index and peek() = None; storage and comparator are untouched |
| ArduinoHeap.ResetIsFresh | arduino/Heap.cpp:253-257 | a reset heap equals a freshly constructed heap of the same capacity and comparator, apart from the untouched storage |
| RecursiveHeap.Heapify | src/Heap.cpp:161-168 | recursive sift-up permutes the slots up to the index and leaves every later slot unchanged |
| RecursiveHeap.HeapifyRestoresOrder | src/Heap.cpp:161-168 | from a prefix ordered except above the index, heapify orders the whole prefix |
| RecursiveHeap.Add | src/Heap.cpp:80-90 | succeeds exactly when not full; failure changes nothing; success grows the size by one, sets the last-inserted index, adds exactly the key, and keeps heap order |
| RecursiveHeap.Poll | src/Heap.cpp:122-130 | returns what peek() returns; leaves an empty heap unchanged; otherwise shrinks by one and removes exactly that element from the live multiset |
| RecursiveHeap.PollLosesOrder | src/Heap.cpp:122-130 | the ordered max-heap built from 4, 2, 3, 1 is unordered after one poll, and the second poll returns 2 while 3 is still live |
| RecursiveHeap.FourTwoThreeOneIsReachable | src/Heap.cpp:80-90 | adding 4, 2, 3, 1 to an empty max-heap of capacity 4 builds exactly the heap PollLosesOrder starts from |
| RecursiveHeap.FindAndUpdateElement | src/Heap.cpp:177-185 | true exactly when the old element is live; false changes nothing; true keeps the size and replaces one old by the new; order is kept when the new element is favoured over the old |
| RecursiveHeap.UpdateOfRootLosesOrder | src/Heap.cpp:177-185 | lowering the root of the ordered max-heap [5, 3] to 1 leaves [1, 3], out of order, because the sift-up starts at the root |
| RecursiveHeap.DeleteLazy | src/Heap.cpp:193-210 | FLOAT_MIN on an empty heap reports true without change; deleting the root is exactly poll(), which keeps the last-inserted index, shrinks by one and removes the root; otherwise it succeeds exactly when the element is live and a last-inserted index is defined, keeps the size and forgets the index, or changes nothing |
| SortedMedian.Sort | src/RunningMedian.cpp:66-109 | the reference arrangement is sorted and holds exactly the samples |
| SortedMedian.SortedUnique | src/RunningMedian.cpp:66-109 | two sorted arrangements of the same samples are equal, so the classical median is well defined |
| SortedMedian.MedianIgnoresOrder | src/RunningMedian.cpp:66-109 | the classical median depends only on the multiset of samples |
| SortedMedian.MedianOfHalves | src/RunningMedian.cpp:66-109 | for two separated halves whose sizes differ by at most one, the median is the top of the larger half, or the mean of the lower top and the upper bottom when they are equal |
| RunningMedian.Create | src/RunningMedian.cpp:43-47 | the new engine keeps the invariant, holds no samples, has median FLOAT_MIN, and gives both heaps the requested capacity |
| RunningMedian.Reset | src/RunningMedian.cpp:183-187 | both heaps are empty, the median is FLOAT_MIN, capacities are kept, and the invariant holds again when the capacities are equal |
| RunningMedian.ResetIsCreate | src/RunningMedian.cpp:183-187 | reset yields the freshly constructed engine, apart from the untouched storage |
| RunningMedian.MedianIsClassical | src/RunningMedian.h:5-7 | under the invariant the cached median is FLOAT_MIN when there are no samples and otherwise the classical median of all samples |
| RunningMedian.MedianSplitsHalves | src/RunningMedian.h:5-6 | under the invariant every left sample is at most the median and every right sample at least it |
| RunningMedian.AddWhenLeftLarger | src/RunningMedian.cpp:71-83 | with a larger left heap, in any order, the add succeeds exactly when the right heap has room, and then exactly that sample joins, the left size is kept and the right grows by one; the stored median is the mean of the new roots; from the invariant the add succeeds, the invariant holds and the sizes become equal |
| RunningMedian.AddWhenEven | src/RunningMedian.cpp:84-93 | a sample below the median goes to the left heap and the median is its root, otherwise to the right heap and its root; it succeeds exactly when that heap had room; a failure changes no heap; a success adds exactly that sample and grows that heap by one, and from the invariant keeps it |
| RunningMedian.AddWhenRightLarger | src/RunningMedian.cpp:94-104 | with a larger right heap, in any order, the add succeeds exactly when the left heap has room, and then exactly that sample joins, the right size is kept and the left grows by one; the stored median is the mean of the new roots; from the invariant the add succeeds, the invariant holds and the sizes become equal |
| RunningMedian.GetMedian | src/RunningMedian.cpp:66-109 | whenever the capacities are equal, the sizes within one and the heaps not both full, even out of heap order, the sample is added, exactly it joins, the sizes stay within one and become equal if they differed, and the result is the stored median, above FLOAT_MIN when every sample is a 32-bit int; from the invariant and not full, the result is the classical median of all samples so far and the invariant is kept; with equal capacities and sizes within one, a full engine keeps its heaps and returns FLOAT_MIN, and when every sample is a 32-bit int FLOAT_MIN is returned only then |
| RunningMedian.MoveRoot | src/RunningMedian.cpp:139-144 | moving the root of one heap to the other succeeds exactly when the target has room; the source loses exactly its root; on success the target gains it, else it is unchanged; separation of the halves is kept in either orientation |
| RunningMedian.DeleteCases | arduino/Heap.cpp:230-248 | every lazy deletion is exactly one of: polling the root, leaving a FLOAT_MIN tombstone, resurrecting a dead slot's value, or deleting nothing |
| RunningMedian.DeleteOld | src/RunningMedian.cpp:133 | only deleting the root shrinks the heap, removing exactly it and keeping order; a tombstone replaces old by FLOAT_MIN, a resurrection replaces it by the dead last-inserted slot's value, and a miss changes nothing |
| RunningMedian.DeleteThenAdd | src/RunningMedian.cpp:131-134 | only deleting the root shrinks the deleting heap; the adding heap grows by one exactly when it has room; when it has room, the pooled samples change by old → new for a root, by old → FLOAT_MIN plus new for a tombstone, by old → the dead slot's value plus new for a resurrection, and by plus new alone when nothing is deleted; a root deletion keeps the halves separated when the new element belongs to the adding side |
| RunningMedian.Rebalance | src/RunningMedian.cpp:135-147 | equal sizes change nothing; otherwise the larger heap loses exactly its root and one size, and the move succeeds exactly when the smaller heap has room, which then gains exactly that root and one size and else is unchanged; with equal capacities it always succeeds, brings a size difference of up to three back within one, keeps the pooled samples and keeps the halves separated |
| RunningMedian.DeleteAddBalance | src/RunningMedian.cpp:131-148 | with equal capacities the result is true; sizes within one stay within one; with room to add, deleting the root leaves both sizes as they were, and otherwise the deleting heap ends one larger when it was not the larger one and the adding heap one larger when it was; the pooled samples change by old → new for a root, old → FLOAT_MIN plus new for a tombstone, old → the dead slot's value plus new for a resurrection, and plus new alone when nothing is deleted; separation is kept when old was a root |
| RunningMedian.UpdateLower | src/RunningMedian.cpp:160-166 | an old element below the median is looked for in the left heap only; on the same side the result says whether it was found, the right heap is unchanged, and a success keeps the left size, swaps old for new in its samples, keeps the last live slot where findAndUpdateElement left it and, from the invariant, keeps the samples split; equal capacities with sizes within one stay so on either path, whatever the heap order or stored median; crossing over always reports true and, from the invariant with the old element the left root and room on the right, keeps the engine balanced with old → new |
| RunningMedian.UpdateUpper | src/RunningMedian.cpp:167-172 | the mirror of UpdateLower for an old element at or above the median, looked for in the right heap only |
| RunningMedian.UpdateElement | src/RunningMedian.cpp:157-178 | before the first sample it reports false and changes nothing; the cached median is never changed; a false result changes nothing; crossing sides always reports true; equal capacities with sizes within one stay so, whatever the heap order or stored median; on the same side the result says whether old was in its heap, the other heap is unchanged, and a success keeps that heap's size, swaps old for new in its samples and in all samples, leaves its last live slot as findAndUpdateElement left it, and from the invariant keeps the samples split; across, when old is a root and the target has room, the heaps stay balanced and the samples change by old → new |
| RunningMedian.CrossToUpper | src/RunningMedian.cpp:163-165 | the stored median and the capacities are kept; equal capacities with sizes within one stay so, and from the invariant, when old is the left root, new is at or above the median and the right heap has room, the engine stays balanced and holds new instead of old |
| RunningMedian.CrossToLower | src/RunningMedian.cpp:169-171 | the mirror of CrossToUpper, from the right heap to the left |
| RunningMedian.UpdateLowerFixed | src/RunningMedian.cpp:160-166 | UpdateLower with the order-keeping update: sizes within one at equal capacities stay so, and a same-side success from the invariant leaves the engine balanced with old → new |
| RunningMedian.UpdateUpperFixed | src/RunningMedian.cpp:167-172 | UpdateUpper with the order-keeping update: sizes within one at equal capacities stay so, and a same-side success from the invariant leaves the engine balanced with old → new |
| RunningMedian.UpdateElementFixed | src/RunningMedian.cpp:157-178 | the result and routing of updateElement; sizes within one at equal capacities stay so, and from the invariant every same-side success, like a cross update that deleted a root into a heap with room, leaves the engine balanced with old → new |
| RunningMedian.UpdateFiveToOne | src/RunningMedian.cpp:157-178 | from left [5, 3], right [9, 10] and median 7, updateElement(5, 1) succeeds and leaves the left heap [1, 3], out of order, so getMedian() gives 5 while the samples 1, 3, 9, 10 have median 6 |
| RunningMedian.UpdateFiveToOneFixed | src/RunningMedian.cpp:157-178 | the same update through the order-keeping path leaves the engine balanced, and getMedian() gives the median 6 |
| RunningMedian.UpdateEightThreeNineTen | src/RunningMedian.cpp:157-178 | from split samples left {8, 3}, right {9, 10} with the stale median 7, updateElement(9, 7) stays on the right side and succeeds, and the samples are no longer split: 8 on the left lies above 7 on the right |
| RunningMedian.RingBufferStep | src/main.cpp:204-208 | one ring-buffer step, updateElement then getMedian() on success: equal capacities with sizes within one stay so; a read stores and returns the mean of the roots; no read means no change, as before the first sample |
| RunningMedian.RingBufferUpdates | src/main.cpp:204-217 | any number of such steps keep equal capacities with sizes within one, return at most one read per update, leave the last read as the stored median, and change nothing before the first sample |
| RunningMedian.CurrentMedian | src/RunningMedian.cpp:116-119 | getMedian() stores and returns the mean of the roots; from balanced heaps of equal size this is the classical median; from unequal sizes it is the classical median exactly when the two roots are equal |
| RunningMedian.CurrentMedianFixed | src/RunningMedian.cpp:116-119 | the median the roots give (the larger heap's root on unequal sizes) restores the invariant, is the classical median of the samples, and is FLOAT_MIN with no samples |
| RunningMedian.CurrentMedianOfOneTwoThree | src/RunningMedian.cpp:116-119 | for the samples 1, 2, 3 the classical median is 2, getMedian() as written gives 1.5, and the corrected version gives 2 |
| RunningMedian.FeedOneTwoThree | src/RunningMedian.cpp:66-119 | feeding 1, 2, 3 returns 1, 1.5 and 2 and keeps the invariant, and a following getMedian() returns something other than 2 |
| RunningMedian.CurrentMedianMissesOneTwoThree | src/RunningMedian.cpp:116-119 | on any balanced engine holding exactly 1, 2, 3, getMedian() as written misses the classical median |

## Left out

- `toString` of both heaps and of the engine, and the string helpers: output formatting
  only.
- The console program in src/main.cpp, apart from the update-then-read loop of its
  fourth test (src/main.cpp:204-217), which `RingBufferStep` and `RingBufferUpdates`
  model: the rest only drives the library and prints, and the printing is left out.
- `checkDeletedRoot`: it is never called.
- Destructors and the `DEFAULT_MAX_HEAP_SIZE` constructor: memory management, and a
  default capacity, respectively.
- The protected accessors `parent`, `leftChild` and `rightChild` of arduino/Heap.cpp
  (lines 150-152 and 292-304) return a slot's `float` value converted to `int`, and the
  sift loops compare through them (lines 180 and 193). A stored 32-bit sample converts
  back to itself. A FLOAT_MIN tombstone that `deleteLazy` left in a live slot lies far
  outside the range of `int`, and C++ leaves that conversion undefined. The model
  compares the slot values themselves, so what a sift does once such a tombstone is
  compared through these accessors is not modelled.
- The same conversion in `add(poll())`: `add` takes an `int` and receives `poll()`'s
  `float` at src/RunningMedian.cpp:74, 99, 139 and 142. A FLOAT_MIN tombstone that a
  non-root cross delete left in the last live slot of a heap is swapped to the root by
  the next poll and stays there, so that `add(poll())` converts FLOAT_MIN to `int`,
  which C++ leaves undefined. The model moves the tombstone across as an ordinary
  value; `Rebalance`, `MoveRoot`, `AddWhenLeftLarger` and `AddWhenRightLarger` keep the
  pooled samples only in that model.
- Float storage: arduino/Heap.h:148 stores the samples as `float`, which represents
  integers exactly only up to 2^24 in magnitude. Larger 32-bit samples are rounded when
  stored, so distinct samples may become equal. The model stores exact integers.
- `hasLeftChild` and `hasRightChild` are folded into the sift-down loop's test, which
  uses the same strict `< heapCurrentIndex` bound.
- The recursive `heapify(index)` of arduino/Heap.cpp is not called by any Arduino
  operation. Its behaviour is that of `RecursiveHeap.Heapify`.
- Float arithmetic: values are integers and the median is an exact `real`, so rounding
  in `mean` is not modelled. `updateElement` takes an `int` for both elements, as
  src/RunningMedian.h:74 declares; src/RunningMedian.cpp:157 takes a `float` new element.
- C `int` overflow, for example of `2 * index + 1`, and negative array sizes: capacities
  are natural numbers.
- The constructor of arduino/Heap.cpp does not set `lastInsertedIndex`; the model uses
  the field's default `NOT_DEFINED` from arduino/Heap.h.
- src/Heap.cpp `peek`, `size`, `find` and `reset` are the same code as the Arduino
  versions and are modelled once, in `ArduinoHeap`.
- RecursiveHeap.Poll: no heap order is claimed, because the code does not keep it
  (see Findings).
- RecursiveHeap.DeleteLazy: no heap order or multiset change is claimed for the
  non-root case, since the parent heapify of src/Heap.cpp does not restore order.
- ArduinoHeap.FindAndUpdateElement: no heap order is claimed (see Findings).
- ArduinoHeap.DeleteLazy: no heap order is claimed for the non-root case. A sift-down
  from the root does not restore order around the overwritten slot, and the overwritten
  slot may hold FLOAT_MIN.
- RunningMedian.UpdateElement: on the cross path the balance and the change old → new
  are stated only when the old element is a root.
  - A non-root old element on the cross path leaves a FLOAT_MIN tombstone, which then
    counts as a sample.
  - After a poll, `lastInsertedIndex` may point past the live prefix; `deleteLazy` then
    brings that dead slot's value back as a sample.
  - An old element that is neither live nor the root is not deleted, yet new is added.
  - These cases are modelled as written and stated in `DeleteAddBalance`.
- RunningMedian.UpdateElement: on the same side no heap order is claimed, only the
  split, because `findAndUpdateElement` does not keep order (see Findings).
- RunningMedian.UpdateElement: the split of the samples is claimed only from `Inv`,
  because `updateElement` never refreshes the stored median, and a later update routed
  by a stale median can break separation. With capacity 3, left [5, 3], right [9, 10]
  and median 7, `updateElement(5, 8)` leaves left [8, 3], right [9, 10] and median 7;
  `updateElement(9, 7)` then writes 7 on the right, below 8 on the left
  (`UpdateEightThreeNineTen` proves this step); `getMedian()` then gives the mean 7.5 of
  the roots 8 and 7, which is still the median of 3, 7, 8 and 10, and stores it; with
  equal sizes, `getMedian(9)` then adds 9 to the right heap and gives its root 7 where
  the samples 3, 7, 8, 9, 10 have median 8. Only the sizes are promised
  across such sequences (`SizesClose`, `RingBufferUpdates`).
- RunningMedian.GetMedian: the result is claimed above FLOAT_MIN only when every sample
  is a 32-bit int. A FLOAT_MIN tombstone left by a cross update counts as a sample and
  can become a root.
- RunningMedian.UpdateElement: the result ignores `deleteAddBalance`, so a cross update
  into a full heap drops the new element yet reports true. This is modelled as written.
- The engine is built on the Arduino heap. The src/ engine links the src/ heap, whose
  `poll` loses heap order (see Findings).

## Findings

| source | as written | input that shows it | evidently intended | confidence | as-written member | corrected member |
|---|---|---|---|---|---|---|
| src/Heap.cpp:122-130 | `poll` moves the last slot to the root and only sifts up from the parent of the old last slot, so the new root is never sifted down | max-heap built by adding 4, 2, 3, 1: after one poll the live slots are [2, 1, 3], the second poll returns 2 while 3 is still live | sift the new root down, as arduino/Heap.cpp does | high, not executed | RecursiveHeap.PollLosesOrder | ArduinoHeap.Poll |
| arduino/Heap.cpp:213-222 | `findAndUpdateElement` overwrites the slot and sifts down from the root only, and the sift-down never moves the last live slot | max-heap [2, 1]: updating 1 to 3 leaves [2, 3], which is not heap-ordered | sift the updated slot up or down, depending on the new value | high, not executed | ArduinoHeap.UpdateOfLastSlotLosesOrder | ArduinoHeap.FindAndUpdateElementFixed |
| src/RunningMedian.cpp:116-119 | `getMedian()` always returns the mean of the two roots | samples 1, 2, 3: the roots are 1 and 2, so 1.5 is returned where the median is 2 | the larger heap's root when the sizes differ, as `getMedian(int)` computes | high, not executed | RunningMedian.CurrentMedianOfOneTwoThree | RunningMedian.CurrentMedianFixed |
| src/RunningMedian.cpp:160-172 | the same-side path of `updateElement` calls `findAndUpdateElement`, which can leave the updated heap out of order (second row), so later reads of the root are stale | left heap [5, 3], right heap [9, 10], median 7: `updateElement(5, 1)` writes 1 into the left root, and neither heap moves it (the sift-down of arduino/Heap.cpp stops short of the last live slot, the sift-up of src/Heap.cpp starts at the root, see RecursiveHeap.UpdateOfRootLosesOrder), so the left heap is [1, 3] and `getMedian()` then gives 5 where the samples 1, 3, 9, 10 have median 6 | keep the updated heap ordered by sifting the updated slot up or down | high, not executed | RunningMedian.UpdateFiveToOne | RunningMedian.UpdateElementFixed |

=== FILE: arduino_heap.dfy ===
/** The reference heap of arduino/Heap.cpp: a fixed-capacity array-backed binary heap
    whose order comes from the comparator it is built with, with an iterative
    sift-up (`heapifyUp`) and an iterative sift-down from the root (`heapifyDown`). */
module ArduinoHeap {
  import opened Optional
  import opened HeapUtils

  /** The fields of class Heap. `currentIndex` is heapCurrentIndex, the index of the
      last live slot (NotDefined when empty); the capacity maxHeapSize is the length
      of `heapArray`. */
  datatype Heap = Heap(heapArray: seq<int>, comparator: Comparator,
                       currentIndex: int, lastInsertedIndex: int)

  /** What every operation keeps: the live prefix fits in the array and the
      last-inserted index, when defined, is a slot of the array at or past the last
      live one (add() sets it to the new last slot, poll() only shrinks the prefix). */
  predicate Valid(h: Heap) {
    && -1 <= h.currentIndex < |h.heapArray|
    && (h.lastInsertedIndex == NotDefined || h.currentIndex <= h.lastInsertedIndex < |h.heapArray|)
  }

  function Capacity(h: Heap): nat {
    |h.heapArray|
  }

  /** size(): the number of live elements, never above the capacity. */
  function Size(h: Heap): (n: int)
    requires Valid(h)
    ensures 0 <= n <= Capacity(h)
  {
    h.currentIndex + 1
  }

  /** The live elements: the first Size(h) slots. */
  function Live(h: Heap): multiset<int>
    requires Valid(h)
  {
    multiset(h.heapArray[..Size(h)])
  }

  /** Heap order over the first `n` slots: each parent may be an ancestor of its child. */
  predicate Ordered(c: Comparator, a: seq<int>, n: int)
    requires 0 <= n <= |a|
  {
    forall i :: 0 < i < n ==> Compare(c, a[ParentIndex(i)], a[i])
  }

  predicate HeapOrdered(h: Heap)
    requires Valid(h)
  {
    Ordered(h.comparator, h.heapArray, Size(h))
  }

  /** Heap order on the first `n` slots except between slot `k` and its parent, while
      that parent may still be an ancestor of `k`'s children (the state of sift-up). */
  predicate OrderedExceptUp(c: Comparator, a: seq<int>, n: int, k: int)
    requires 0 <= k < n <= |a|
  {
    && (forall i :: 0 < i < n && i != k ==> Compare(c, a[ParentIndex(i)], a[i]))
    && (k > 0 ==> forall i :: 0 < i < n && ParentIndex(i) == k ==>
                               Compare(c, a[ParentIndex(k)], a[i]))
  }

  /** Heap order on the first `n` slots except between slot `k` and its children, while
      `k`'s parent may still be an ancestor of those children (the state of sift-down). */
  predicate OrderedExceptDown(c: Comparator, a: seq<int>, n: int, k: int)
    requires 0 <= k && n <= |a|
  {
    && (forall i :: 0 < i < n && ParentIndex(i) != k ==> Compare(c, a[ParentIndex(i)], a[i]))
    && (k > 0 ==> forall i :: 0 < i < n && ParentIndex(i) == k ==>
                               Compare(c, a[ParentIndex(k)], a[i]))
  }

  /** The constructor: `capacity` slots all holding FLOAT_MIN, nothing live and no
      last-inserted index. */
  function New(capacity: nat, c: Comparator): (h: Heap)
    ensures Valid(h) && HeapOrdered(h)
    ensures Capacity(h) == capacity && h.comparator == c
    ensures Size(h) == 0 && Live(h) == multiset{}
    ensures h.lastInsertedIndex == NotDefined
  {
    Heap(seq(capacity, _ => FloatMin), c, NotDefined, NotDefined)
  }

  /** In an ordered prefix the root may be an ancestor of every slot. */
  lemma {:induction false} RootDominates(c: Comparator, a: seq<int>, n: int, i: int)
    requires 0 <= i < n <= |a| && Ordered(c, a, n)
    ensures Compare(c, a[0], a[i])
    decreases i
  {
    if i > 0 {
      var p := ParentIndex(i);
      RootDominates(c, a, n, p);
      ComparatorsMirror(a[0], a[p], a[i]);
    }
  }

  /** The root of an ordered non-empty heap is its extreme element: the largest for
      MaxOrder, the smallest for MinOrder. */
  lemma RootIsExtreme(h: Heap)
    requires Valid(h) && HeapOrdered(h) && Size(h) > 0
    ensures forall y :: y in Live(h) ==> Compare(h.comparator, h.heapArray[0], y)
  {
    var live := h.heapArray[..Size(h)];
    forall y | y in Live(h)
      ensures Compare(h.comparator, h.heapArray[0], y)
    {
      assert y in live;
      var i :| 0 <= i < |live| && live[i] == y;
      RootDominates(h.comparator, h.heapArray, Size(h), i);
    }
  }

  /** peek(): the root without mutation, None (the source's FLOAT_MIN) when empty. */
  function Peek(h: Heap): (r: Option<int>)
    requires Valid(h)
    ensures r.None? <==> Size(h) == 0
    ensures r.Some? ==> r.value in Live(h)
    ensures r.Some? && HeapOrdered(h) ==> forall y :: y in Live(h) ==> Compare(h.comparator, r.value, y)
  {
    if h.currentIndex >= 0 then
      assert h.heapArray[0] in h.heapArray[..Size(h)];
      if HeapOrdered(h) then RootIsExtreme(h); Some(h.heapArray[0])
      else Some(h.heapArray[0])
    else None
  }

  lemma SwapInPrefix(a: seq<int>, i: int, j: int, n: int)
    requires 0 <= i < n && 0 <= j < n && n <= |a|
    ensures multiset(Swap(a, i, j)[..n]) == multiset(a[..n])
    ensures Swap(a, i, j)[n..] == a[n..]
  {
    assert Swap(a, i, j)[..n] == Swap(a[..n], i, j);
  }

  lemma SiftUpStep(c: Comparator, b: seq<int>, n: int, k: int)
    requires 0 < k < n <= |b|
    requires OrderedExceptUp(c, b, n, k)
    requires Compare(c, b[k], b[ParentIndex(k)])
    ensures OrderedExceptUp(c, Swap(b, ParentIndex(k), k), n, ParentIndex(k))
  {
    var p := ParentIndex(k);
    var b' := Swap(b, p, k);
    forall i | 0 < i < n && i != p
      ensures Compare(c, b'[ParentIndex(i)], b'[i])
    {
      var q := ParentIndex(i);
      if i == k {
      } else if q == k {
        assert Compare(c, b[p], b[i]);
      } else if q == p {
        ComparatorsMirror(b[k], b[p], b[i]);
      } else {
        assert b'[q] == b[q] && b'[i] == b[i];
      }
    }
    if p > 0 {
      var pp := ParentIndex(p);
      forall i | 0 < i < n && ParentIndex(i) == p
        ensures Compare(c, b'[pp], b'[i])
      {
        if i == k {
        } else {
          ComparatorsMirror(b[pp], b[p], b[i]);
        }
      }
    }
  }

  /** Sift-up from slot `k` within the first `n` slots: moves the element there towards
      the root while the comparator favours it over its parent. Only the first `n`
      slots move and they keep their multiset; if they were ordered except between `k`
      and its parent, they are ordered afterwards. */
  method SiftUp(c: Comparator, a: seq<int>, n: int, k: int) returns (b: seq<int>)
    requires 0 <= k < n <= |a|
    ensures |b| == |a|
    ensures b[n..] == a[n..]
    ensures multiset(b[..n]) == multiset(a[..n])
    ensures OrderedExceptUp(c, a, n, k) ==> Ordered(c, b, n)
  {
    b := a;
    var index := k;
    ghost var ready := OrderedExceptUp(c, a, n, k);
    while HasParent(index) && Compare(c, b[index], b[ParentIndex(index)])
      invariant 0 <= index <= k
      invariant |b| == |a| && b[n..] == a[n..]
      invariant multiset(b[..n]) == multiset(a[..n])
      invariant ready ==> OrderedExceptUp(c, b, n, index)
      decreases index
    {
      var p := ParentIndex(index);
      if ready {
        SiftUpStep(c, b, n, index);
      }
      SwapInPrefix(b, p, index, n);
      b := Swap(b, p, index);
      index := p;
    }
    if ready && index > 0 {
      ComparatorsMirror(b[index], b[ParentIndex(index)], b[index]);
    }
  }

  /** heapifyUp: sift-up from the last live slot `last`. If the slots before it were
      heap-ordered, the first `last + 1` slots are heap-ordered afterwards; they keep
      their multiset of values and no slot after `last` changes. */
  method HeapifyUp(c: Comparator, a: seq<int>, last: int) returns (b: seq<int>)
    requires 0 <= last < |a|
    ensures |b| == |a|
    ensures b[last + 1..] == a[last + 1..]
    ensures multiset(b[..last + 1]) == multiset(a[..last + 1])
    ensures Ordered(c, a, last) ==> Ordered(c, b, last + 1)
  {
    assert Ordered(c, a, last) ==> OrderedExceptUp(c, a, last + 1, last);
    b := SiftUp(c, a, last + 1, last);
  }

  lemma SiftDownStep(c: Comparator, b: seq<int>, m: int, k: int, child: int)
    requires 0 <= k < child < m <= |b| && ParentIndex(child) == k
    requires OrderedExceptDown(c, b, m, k)
    requires !Compare(c, b[k], b[child])
    requires forall s :: 0 < s < m && s != child && ParentIndex(s) == k ==> Compare(c, b[child], b[s])
    ensures OrderedExceptDown(c, Swap(b, k, child), m, child)
  {
    var b' := Swap(b, k, child);
    forall i | 0 < i < m && ParentIndex(i) != child
      ensures Compare(c, b'[ParentIndex(i)], b'[i])
    {
      var q := ParentIndex(i);
      if i == child {
        ComparatorsMirror(b[k], b[child], b[k]);
      } else if q == k {
        assert Compare(c, b[child], b[i]);
      } else if i == k {
        assert Compare(c, b[ParentIndex(k)], b[child]);
      } else {
        assert b'[q] == b[q] && b'[i] == b[i];
      }
    }
    forall i | 0 < i < m && ParentIndex(i) == child
      ensures Compare(c, b'[k], b'[i])
    {
      assert b'[i] == b[i];
    }
  }

  /** Sift-down from slot `k`: swaps the current slot with its most extreme child while
      that child is favoured over it. A slot counts as a child only when its index is
      below `bound`; only the first `bound` slots move and they keep their multiset. If
      they were ordered except between `k` and its children, they are ordered after. */
  method SiftDown(c: Comparator, a: seq<int>, bound: int, k: int) returns (b: seq<int>)
    requires 0 <= k && bound <= |a|
    ensures |b| == |a|
    ensures bound <= 1 ==> b == a
    ensures 0 <= bound ==> b[bound..] == a[bound..]
    ensures 0 <= bound ==> multiset(b[..bound]) == multiset(a[..bound])
    ensures 0 <= bound && OrderedExceptDown(c, a, bound, k) ==> Ordered(c, b, bound)
  {
    b := a;
    var index := k;
    ghost var ready := 0 <= bound && OrderedExceptDown(c, a, bound, k);
    while LeftChildIndex(index) < bound
      invariant k <= index && (index == k || index < bound)
      invariant |b| == |a|
      invariant bound <= 1 ==> b == a
      invariant 0 <= bound ==> b[bound..] == a[bound..]
      invariant 0 <= bound ==> multiset(b[..bound]) == multiset(a[..bound])
      invariant ready ==> OrderedExceptDown(c, b, bound, index)
      decreases bound - index
    {
      var left := LeftChildIndex(index);
      var right := RightChildIndex(index);
      var child := left;
      if right < bound && Compare(c, b[right], b[left]) {
        child := right;
      }
      ChildParentRoundTrip(index);
      if right < bound {
        ComparatorsMirror(b[left], b[right], b[left]);
      }
      if Compare(c, b[index], b[child]) {
        if ready {
          ComparatorsMirror(b[index], b[child], b[left]);
          if right < bound {
            ComparatorsMirror(b[index], b[child], b[right]);
          }
        }
        break;
      }
      if ready {
        SiftDownStep(c, b, bound, index, child);
      }
      SwapInPrefix(b, index, child, bound);
      b := Swap(b, index, child);
      index := child;
    }
  }

  /** heapifyDown: sift-down from the root. The source passes heapCurrentIndex as the
      bound, so the last live slot never counts as a child and never moves. */
  method HeapifyDown(c: Comparator, a: seq<int>, bound: int) returns (b: seq<int>)
    requires bound <= |a|
    ensures |b| == |a|
    ensures bound <= 1 ==> b == a
    ensures 0 <= bound ==> b[bound..] == a[bound..]
    ensures 0 <= bound ==> multiset(b[..bound]) == multiset(a[..bound])
    ensures 0 <= bound && OrderedExceptDown(c, a, bound, 0) ==> Ordered(c, b, bound)
  {
    b := SiftDown(c, a, bound, 0);
  }

  lemma AppendToPrefix(a: seq<int>, n: int, key: int)
    requires 0 <= n < |a|
    ensures multiset(a[n := key][..n + 1]) == multiset(a[..n]) + multiset{key}
    ensures a[n := key][n + 1..] == a[n + 1..]
  {
    assert a[n := key][..n + 1] == a[..n] + [key];
  }

  /** add(key): fails and changes nothing when the heap is full; otherwise the key
      is placed in the next free slot, which becomes the last-inserted index, and is
      sifted up. The live multiset gains exactly `key` and heap order is kept. */
  method Add(h: Heap, key: int) returns (h': Heap, inserted: bool)
    requires Valid(h)
    ensures Valid(h') && h'.comparator == h.comparator && Capacity(h') == Capacity(h)
    ensures inserted <==> Size(h) < Capacity(h)
    ensures !inserted ==> h' == h
    ensures inserted ==> Size(h') == Size(h) + 1 && h'.lastInsertedIndex == Size(h)
    ensures inserted ==> Live(h') == Live(h) + multiset{key}
    ensures inserted ==> h'.heapArray[Size(h')..] == h.heapArray[Size(h')..]
    ensures HeapOrdered(h) ==> HeapOrdered(h')
  {
    if h.currentIndex + 1 < |h.heapArray| {
      var index := h.currentIndex + 1;
      var a := h.heapArray[index := key];
      AppendToPrefix(h.heapArray, index, key);
      assert Ordered(h.comparator, h.heapArray, index) ==> Ordered(h.comparator, a, index);
      a := HeapifyUp(h.comparator, a, index);
      h' := h.(heapArray := a, currentIndex := index, lastInsertedIndex := index);
      inserted := true;
    } else {
      h' := h;
      inserted := false;
    }
  }

  /** After the root is swapped with the last live slot, the slots before it hold the
      old live elements minus the root, ordered everywhere except at the root. */
  lemma SwapRootWithLast(c: Comparator, a: seq<int>, last: int)
    requires 0 <= last < |a|
    ensures multiset(Swap(a, 0, last)[..last]) == multiset(a[..last + 1]) - multiset{a[0]}
    ensures Swap(a, 0, last)[last] == a[0]
    ensures Ordered(c, a, last + 1) ==> OrderedExceptDown(c, Swap(a, 0, last), last, 0)
  {
    var b := Swap(a, 0, last);
    SwapInPrefix(a, 0, last, last + 1);
    assert b[..last + 1] == b[..last] + [b[last]];
    if Ordered(c, a, last + 1) {
      forall i | 0 < i < last && ParentIndex(i) != 0
        ensures Compare(c, b[ParentIndex(i)], b[i])
      {
        assert b[ParentIndex(i)] == a[ParentIndex(i)];
      }
    }
  }

  /** poll(): on an empty heap returns None and changes nothing. Otherwise returns the
      root, swaps it with the last live slot, sifts down over the slots before it and
      then shrinks the heap: the live multiset loses exactly the returned root and
      heap order is kept. The last-inserted index is left as it was. */
  method Poll(h: Heap) returns (h': Heap, polled: Option<int>)
    requires Valid(h)
    ensures Valid(h') && h'.comparator == h.comparator && Capacity(h') == Capacity(h)
    ensures polled == Peek(h)
    ensures Size(h) == 0 ==> h' == h
    ensures Size(h) > 0 ==> Size(h') == Size(h) - 1 && Live(h') == Live(h) - multiset{polled.value}
    ensures h'.lastInsertedIndex == h.lastInsertedIndex
    ensures HeapOrdered(h) ==> HeapOrdered(h')
  {
    if h.currentIndex != NotDefined {
      var last := h.currentIndex;
      polled := Some(h.heapArray[0]);
      var a := Swap(h.heapArray, 0, last);
      SwapRootWithLast(h.comparator, h.heapArray, last);
      var b := HeapifyDown(h.comparator, a, last);
      h' := h.(heapArray := b, currentIndex := last - 1);
      assert Size(h') == last && Size(h) == last + 1;
      assert Live(h) == multiset(h.heapArray[..last + 1]);
      assert Live(h') == multiset(b[..last]);
      assert Live(h') == multiset(a[..last]);
      assert Live(h') == Live(h) - multiset{polled.value};
      assert HeapOrdered(h) ==> Ordered(h.comparator, b, last);
    } else {
      polled := None;
      h' := h;
    }
  }

  /** Scans slots `i` to `n - 1` for `element`. */
  function FindFrom(a: seq<int>, element: int, i: int, n: int): (r: int)
    requires 0 <= i <= n <= |a|
    ensures r == NotDefined <==> element !in a[i..n]
    ensures r != NotDefined ==> i <= r < n && a[r] == element
    ensures r != NotDefined ==> forall j :: i <= j < r ==> a[j] != element
    decreases n - i
  {
    if i == n then NotDefined
    else if a[i] == element then i
    else
      assert a[i..n] == [a[i]] + a[i + 1..n];
      FindFrom(a, element, i + 1, n)
  }

  /** find(element): the smallest live index holding `element`, NotDefined if none. */
  function Find(h: Heap, element: int): (r: int)
    requires Valid(h)
    ensures r == NotDefined <==> element !in Live(h)
    ensures r != NotDefined ==> 0 <= r < Size(h) && h.heapArray[r] == element
    ensures r != NotDefined ==> forall j :: 0 <= j < r ==> h.heapArray[j] != element
  {
    assert h.heapArray[0..Size(h)] == h.heapArray[..Size(h)];
    FindFrom(h.heapArray, element, 0, Size(h))
  }

  /** Overwriting slot `j` of the live prefix replaces one occurrence of the old value. */
  lemma OverwriteInPrefix(a: seq<int>, j: int, n: int, v: int)
    requires 0 <= j < n <= |a|
    ensures multiset(a[j := v][..n]) == multiset(a[..n]) - multiset{a[j]} + multiset{v}
    ensures a[j := v][n..] == a[n..]
  {
    assert a[j := v][..n] == a[..n][j := v];
  }

  lemma SplitLast(a: seq<int>, n: int)
    requires 0 < n <= |a|
    ensures multiset(a[..n]) == multiset(a[..n - 1]) + multiset{a[n - 1]}
  {
    assert a[..n] == a[..n - 1] + [a[n - 1]];
  }

  /** A rearrangement of the first `n - 1` slots that leaves slot `n - 1` alone is a
      rearrangement of the first `n` slots. */
  lemma ExtendPrefixByOne(a: seq<int>, b: seq<int>, n: int)
    requires 0 < n <= |a| == |b|
    requires b[n - 1..] == a[n - 1..] && multiset(b[..n - 1]) == multiset(a[..n - 1])
    ensures multiset(b[..n]) == multiset(a[..n])
  {
    assert b[n - 1] == b[n - 1..][0] == a[n - 1..][0] == a[n - 1];
    SplitLast(a, n);
    SplitLast(b, n);
  }

  /** Slot `index` of the live prefix overwritten by `v`, then rearranged below the last
      live slot: the heap with that storage has the same size, one `h.heapArray[index]`
      replaced by `v` among its live elements, and its last live slot as written. */
  lemma OverwrittenHeap(h: Heap, index: int, v: int, b: seq<int>)
    requires Valid(h) && 0 <= index < Size(h) && |b| == |h.heapArray|
    requires b[h.currentIndex..] == h.heapArray[index := v][h.currentIndex..]
    requires multiset(b[..h.currentIndex]) == multiset(h.heapArray[index := v][..h.currentIndex])
    ensures Valid(h.(heapArray := b)) && Size(h.(heapArray := b)) == Size(h)
    ensures Live(h.(heapArray := b)) == Live(h) - multiset{h.heapArray[index]} + multiset{v}
    ensures b[h.currentIndex] == h.heapArray[index := v][h.currentIndex]
  {
    var a := h.heapArray[index := v];
    OverwriteInPrefix(h.heapArray, index, Size(h), v);
    ExtendPrefixByOne(a, b, Size(h));
    assert b[h.currentIndex] == b[h.currentIndex..][0];
  }

  /** findAndUpdateElement(old, new): when `old` is not live returns false and changes
      nothing. Otherwise writes `new` over the first slot holding `old`, runs heapifyDown
      from the root (bounded by heapCurrentIndex) and returns true: the size and the
      last-inserted index stay, and the live multiset has one `old` replaced by `new`. */
  method FindAndUpdateElement(h: Heap, oldElement: int, newElement: int) returns (h': Heap, updated: bool)
    requires Valid(h)
    ensures Valid(h') && h'.comparator == h.comparator && Capacity(h') == Capacity(h)
    ensures updated <==> oldElement in Live(h)
    ensures !updated ==> h' == h
    ensures updated ==> Size(h') == Size(h) && h'.lastInsertedIndex == h.lastInsertedIndex
    ensures updated ==> Live(h') == Live(h) - multiset{oldElement} + multiset{newElement}
    ensures updated ==>
              && 0 <= h.currentIndex
              && h'.heapArray[h.currentIndex] == h.heapArray[Find(h, oldElement) := newElement][h.currentIndex]
  {
    var index := Find(h, oldElement);
    if index != NotDefined {
      var a := h.heapArray[index := newElement];
      var b := HeapifyDown(h.comparator, a, h.currentIndex);
      OverwrittenHeap(h, index, newElement, b);
      h' := h.(heapArray := b);
      updated := true;
    } else {
      h' := h;
      updated := false;
    }
  }

  /** findAndUpdateElement as written loses heap order: in the max-heap holding 2 above
      1, updating 1 to 3 leaves 3 in the last live slot, which heapifyDown never moves,
      below its parent 2. */
  method UpdateOfLastSlotLosesOrder() returns (h: Heap, h': Heap, updated: bool)
    ensures Valid(h) && HeapOrdered(h) && Live(h) == multiset{2, 1}
    ensures updated && Valid(h') && Live(h') == multiset{2, 3} && !HeapOrdered(h')
  {
    h := Heap([2, 1], MaxOrder, 1, 1);
    assert h.heapArray[..2] == [2, 1];
    assert ParentIndex(1) == 0;
    h', updated := FindAndUpdateElement(h, 1, 3);
    var b := h'.heapArray;
    assert b[..2] == [b[0], b[1]] && b[1] == 3;
    assert multiset{b[0], 3} == multiset{2, 3};
    assert b[0] == 2;
  }

  /** Replacing slot `k` of an ordered prefix by a value at least as favoured leaves the
      prefix ordered except between `k` and its parent. */
  lemma RaiseKeepsOrderExceptUp(c: Comparator, a: seq<int>, n: int, k: int, v: int)
    requires 0 <= k < n <= |a| && Ordered(c, a, n) && Compare(c, v, a[k])
    ensures OrderedExceptUp(c, a[k := v], n, k)
  {
    var b := a[k := v];
    forall i | 0 < i < n && i != k
      ensures Compare(c, b[ParentIndex(i)], b[i])
    {
      if ParentIndex(i) == k {
        ComparatorsMirror(v, a[k], a[i]);
      }
    }
    if k > 0 {
      forall i | 0 < i < n && ParentIndex(i) == k
        ensures Compare(c, b[ParentIndex(k)], b[i])
      {
        ComparatorsMirror(a[ParentIndex(k)], a[k], a[i]);
      }
    }
  }

  /** Replacing slot `k` of an ordered prefix by a value its old one is favoured over
      leaves the prefix ordered except between `k` and its children. */
  lemma LowerKeepsOrderExceptDown(c: Comparator, a: seq<int>, n: int, k: int, v: int)
    requires 0 <= k < n <= |a| && Ordered(c, a, n) && Compare(c, a[k], v)
    ensures OrderedExceptDown(c, a[k := v], n, k)
  {
    var b := a[k := v];
    forall i | 0 < i < n && ParentIndex(i) != k
      ensures Compare(c, b[ParentIndex(i)], b[i])
    {
      if i == k {
        ComparatorsMirror(a[ParentIndex(k)], a[k], v);
      }
    }
    if k > 0 {
      forall i | 0 < i < n && ParentIndex(i) == k
        ensures Compare(c, b[ParentIndex(k)], b[i])
      {
        ComparatorsMirror(a[ParentIndex(k)], a[k], a[i]);
      }
    }
  }

  /** findAndUpdateElement as evidently intended: the new value is sifted from the slot
      it was written to, up when it is at least as favoured as the old one and down
      (over all live slots) otherwise. Same results as the original, and heap order
      is kept. */
  method FindAndUpdateElementFixed(h: Heap, oldElement: int, newElement: int) returns (h': Heap, updated: bool)
    requires Valid(h)
    ensures Valid(h') && h'.comparator == h.comparator && Capacity(h') == Capacity(h)
    ensures updated <==> oldElement in Live(h)
    ensures !updated ==> h' == h
    ensures updated ==> Size(h') == Size(h) && h'.lastInsertedIndex == h.lastInsertedIndex
    ensures updated ==> Live(h') == Live(h) - multiset{oldElement} + multiset{newElement}
    ensures HeapOrdered(h) ==> HeapOrdered(h')
  {
    var index := Find(h, oldElement);
    if index != NotDefined {
      var c, n := h.comparator, Size(h);
      var a := h.heapArray[index := newElement];
      OverwriteInPrefix(h.heapArray, index, n, newElement);
      var b;
      if Compare(c, newElement, oldElement) {
        if HeapOrdered(h) {
          RaiseKeepsOrderExceptUp(c, h.heapArray, n, index, newElement);
        }
        b := SiftUp(c, a, n, index);
      } else {
        if HeapOrdered(h) {
          ComparatorsMirror(newElement, oldElement, newElement);
          LowerKeepsOrderExceptDown(c, h.heapArray, n, index, newElement);
        }
        b := SiftDown(c, a, n, index);
      }
      h' := h.(heapArray := b);
      updated := true;
    } else {
      h' := h;
      updated := false;
    }
  }

  /** The lazy branch of deleteLazy on live slot `index`: the last-inserted slot's value
      is copied over it, heapifyDown runs from the root, FLOAT_MIN is written into the
      last-inserted slot and that index is forgotten. The size does not change, so
      when the last-inserted slot is the last live one its FLOAT_MIN stays live as a
      tombstone; when it lies past the live slots, its old value becomes live. */
  method LazyOverwrite(h: Heap, index: int) returns (h': Heap)
    requires Valid(h) && 0 <= index < Size(h) && h.lastInsertedIndex != NotDefined
    ensures Valid(h') && h'.comparator == h.comparator && Capacity(h') == Capacity(h)
    ensures Size(h') == Size(h) && h'.lastInsertedIndex == NotDefined
    ensures h.lastInsertedIndex == h.currentIndex ==>
              Live(h') == Live(h) - multiset{h.heapArray[index]} + multiset{FloatMin}
    ensures h.lastInsertedIndex > h.currentIndex ==>
              Live(h') == Live(h) - multiset{h.heapArray[index]} + multiset{h.heapArray[h.lastInsertedIndex]}
  {
    var last, n := h.lastInsertedIndex, Size(h);
    var b := CopyLastInserted(h, index);
    if last == h.currentIndex {
      OverwriteInPrefix(b, last, n, FloatMin);
    } else if last > h.currentIndex {
      assert b[last := FloatMin][..n] == b[..n];
    }
    h' := h.(heapArray := b[last := FloatMin], lastInsertedIndex := NotDefined);
  }

  /** The first two steps of the lazy branch: the last-inserted slot's value copied over
      live slot `index`, then heapifyDown from the root. The live slots lose the value
      at `index` and gain the copied one; the last live slot does not move. */
  method CopyLastInserted(h: Heap, index: int) returns (b: seq<int>)
    requires Valid(h) && 0 <= index < Size(h) && h.lastInsertedIndex != NotDefined
    ensures |b| == |h.heapArray|
    ensures multiset(b[..Size(h)]) ==
              Live(h) - multiset{h.heapArray[index]} + multiset{h.heapArray[h.lastInsertedIndex]}
    ensures h.lastInsertedIndex == h.currentIndex ==> b[h.currentIndex] == h.heapArray[h.currentIndex]
  {
    var n, v := Size(h), h.heapArray[h.lastInsertedIndex];
    var a := h.heapArray[index := v];
    OverwriteInPrefix(h.heapArray, index, n, v);
    assert h.lastInsertedIndex == h.currentIndex ==> a[h.currentIndex] == h.heapArray[h.currentIndex];
    b := HeapifyDown(h.comparator, a, h.currentIndex);
    ExtendPrefixByOne(a, b, n);
    assert b[h.currentIndex] == b[h.currentIndex..][0] == a[h.currentIndex];
  }

  /** deleteLazy(element). When `element` equals peek() (FLOAT_MIN for an empty heap)
      it polls and returns true. Otherwise, when `element` is live and a last-inserted
      index is defined, it copies the last-inserted slot over the first match, runs
      heapifyDown from the root, writes FLOAT_MIN into the last-inserted slot, forgets
      that index and returns true without shrinking the heap. Anything else returns
      false and changes nothing. */
  method DeleteLazy(h: Heap, element: int) returns (h': Heap, deleted: bool)
    requires Valid(h)
    ensures Valid(h') && h'.comparator == h.comparator && Capacity(h') == Capacity(h)
    ensures Size(h) == 0 ==> h' == h && (deleted <==> element == FloatMin)
    ensures Size(h) > 0 && element == h.heapArray[0] ==>
              deleted && Size(h') == Size(h) - 1 && Live(h') == Live(h) - multiset{element}
              && h'.lastInsertedIndex == h.lastInsertedIndex && (HeapOrdered(h) ==> HeapOrdered(h'))
    ensures Size(h) > 0 && element != h.heapArray[0] ==>
              && (deleted <==> element in Live(h) && h.lastInsertedIndex != NotDefined)
              && Size(h') == Size(h)
              && (deleted ==> h'.lastInsertedIndex == NotDefined)
              && (!deleted ==> h' == h)
    ensures Size(h) > 0 && element != h.heapArray[0] && deleted && h.lastInsertedIndex == h.currentIndex ==>
              Live(h') == Live(h) - multiset{element} + multiset{FloatMin}
    ensures Size(h) > 0 && element != h.heapArray[0] && deleted && h.lastInsertedIndex > h.currentIndex ==>
              Live(h') == Live(h) - multiset{element} + multiset{h.heapArray[h.lastInsertedIndex]}
  {
    if element == Peek(h).GetOr(FloatMin) {
      var root;
      h', root := Poll(h);
      return h', true;
    }
    var index := Find(h, element);
    if index != NotDefined && h.lastInsertedIndex != NotDefined {
      h' := LazyOverwrite(h, index);
      deleted := true;
    } else {
      h' := h;
      deleted := false;
    }
  }

  /** reset(): empties the heap and forgets the last-inserted index; the storage, its
      contents and the comparator are kept. The source's poll loop after the reset
      never runs, since the size is already 0. */
  function Reset(h: Heap): (h': Heap)
    requires Valid(h)
    ensures Valid(h') && HeapOrdered(h')
    ensures Size(h') == 0 && Live(h') == multiset{} && Peek(h') == None
    ensures h'.lastInsertedIndex == NotDefined
    ensures h'.heapArray == h.heapArray && h'.comparator == h.comparator
  {
    h.(currentIndex := NotDefined, lastInsertedIndex := NotDefined)
  }

  /** A reset heap and a freshly constructed one of the same capacity and comparator
      differ at most in the contents of their storage. */
  lemma ResetIsFresh(h: Heap)
    requires Valid(h)
    ensures Reset(h) == New(Capacity(h), h.comparator).(heapArray := h.heapArray)
  {}

  /** Polls until the heap reports None, collecting the polled values: they are the
      live multiset, in comparator order (non-increasing for MaxOrder, non-decreasing
      for MinOrder), and the heap ends empty. */
  method PollAll(h: Heap) returns (h': Heap, polled: seq<int>)
    requires Valid(h) && HeapOrdered(h)
    ensures Valid(h') && Size(h') == 0
    ensures multiset(polled) == Live(h)
    ensures forall i, j :: 0 <= i < j < |polled| ==> Compare(h.comparator, polled[i], polled[j])
  {
    var c := h.comparator;
    h' := h;
    polled := [];
    var next: Option<int> := Some(0);  // any Some: the loop polls at least once
    while next.Some?
      invariant Valid(h') && HeapOrdered(h') && h'.comparator == c
      invariant multiset(polled) + Live(h') == Live(h)
      invariant next.None? ==> Size(h') == 0
      invariant forall i, j :: 0 <= i < j < |polled| ==> Compare(c, polled[i], polled[j])
      invariant forall i, y :: 0 <= i < |polled| && y in Live(h') ==> Compare(c, polled[i], y)
      decreases Size(h') + (if next.Some? then 1 else 0)
    {
      ghost var before := h';
      h', next := Poll(h');
      if next.Some? {
        PollStep(c, polled, next.value, Live(before), Live(h'));
        polled := polled + [next.value];
      }
    }
  }

  /** One step of PollAll: appending the polled root keeps the collected values in
      comparator order and ahead of everything still live. */
  lemma PollStep(c: Comparator, polled: seq<int>, v: int, before: multiset<int>, after: multiset<int>)
    requires v in before && after == before - multiset{v}
    requires forall i, j :: 0 <= i < j < |polled| ==> Compare(c, polled[i], polled[j])
    requires forall i, y :: 0 <= i < |polled| && y in before ==> Compare(c, polled[i], y)
    requires forall y :: y in before ==> Compare(c, v, y)
    ensures forall i, j :: 0 <= i < j < |polled + [v]| ==> Compare(c, (polled + [v])[i], (polled + [v])[j])
    ensures forall i, y :: 0 <= i < |polled + [v]| && y in after ==> Compare(c, (polled + [v])[i], y)
  {
    forall i, y | 0 <= i < |polled + [v]| && y in after
      ensures Compare(c, (polled + [v])[i], y)
    {
      assert y in before;
    }
  }
}

=== FILE: heap_utils.dfy ===
/** The free helper functions shared by both heap variants: the two comparators,
    `mean`, `signum`, `swap` and the index arithmetic of an array-backed binary tree. */
module HeapUtils {

  /** The index value the source uses for "no such index" (NOT_DEFINED). */
  const NotDefined: int := -1

  /** The source's FLOAT_MIN (-3.40282e38): written into empty slots and returned
      as "no value". It lies below every 32-bit integer sample. */
  const FloatMin: int := -340282000000000000000000000000000000000

  /** The range of a 32-bit `int`, the type of the samples the running median receives. */
  predicate IsInt32(x: int) {
    -0x8000_0000 <= x < 0x8000_0000
  }

  type Int32 = x: int | IsInt32(x)

  function GreaterOrEqual(a: int, b: int): bool {
    a >= b
  }

  function LessOrEqual(a: int, b: int): bool {
    a <= b
  }

  /** The comparator a heap is built with: `MaxOrder` stands for a pointer to
      `greaterOrEqual` (a max-heap), `MinOrder` for one to `lessOrEqual` (a min-heap). */
  datatype Comparator = MaxOrder | MinOrder

  /** Calls the comparator: true when `a` may be an ancestor of `b`. */
  function Compare(c: Comparator, a: int, b: int): bool {
    match c
    case MaxOrder => GreaterOrEqual(a, b)
    case MinOrder => LessOrEqual(a, b)
  }

  /** The two comparators are mirror images, each reflexive, and each a total preorder. */
  lemma ComparatorsMirror(a: int, b: int, x: int)
    ensures GreaterOrEqual(a, b) == LessOrEqual(b, a)
    ensures GreaterOrEqual(a, a) && LessOrEqual(a, a)
    ensures GreaterOrEqual(a, b) <==> a >= b
    ensures LessOrEqual(a, b) <==> a <= b
    ensures forall c: Comparator :: Compare(c, a, b) || Compare(c, b, a)
    ensures forall c: Comparator :: Compare(c, a, b) && Compare(c, b, x) ==> Compare(c, a, x)
  {}

  /** The mean of two values, `(a + b) / 2`. */
  function Mean(a: real, b: real): (r: real)
    ensures r - a == b - r
    ensures a <= b ==> a <= r <= b
    ensures b <= a ==> b <= r <= a
  {
    (a + b) / 2.0
  }

  lemma MeanSymmetric(a: real, b: real)
    ensures Mean(a, b) == Mean(b, a)
    ensures Mean(a, a) == a
  {}

  /** The generalized signum used to compare the two heap sizes. */
  function Signum(left: int, right: int): (s: int)
    ensures s == 0 <==> left == right
    ensures s == -1 <==> left < right
    ensures s == 1 <==> left > right
  {
    if left == right then 0
    else if left < right then -1 else 1
  }

  lemma SignumAntisymmetric(left: int, right: int)
    ensures Signum(left, right) == -Signum(right, left)
    ensures Signum(left, right) in {-1, 0, 1}
  {}

  /** `swap` applied to two slots of the heap array: the slots exchange their values
      and the array keeps the same multiset of values. */
  function Swap(a: seq<int>, i: int, j: int): (r: seq<int>)
    requires 0 <= i < |a| && 0 <= j < |a|
    ensures |r| == |a|
    ensures r[i] == a[j] && r[j] == a[i]
    ensures forall k :: 0 <= k < |a| && k != i && k != j ==> r[k] == a[k]
    ensures multiset(r) == multiset(a)
  {
    a[i := a[j]][j := a[i]]
  }

  /** Swapping the same two slots twice restores the array. */
  lemma SwapInvolution(a: seq<int>, i: int, j: int)
    requires 0 <= i < |a| && 0 <= j < |a|
    ensures Swap(Swap(a, i, j), i, j) == a
  {}

  function LeftChildIndex(parent: int): int {
    2 * parent + 1
  }

  function RightChildIndex(parent: int): int {
    2 * parent + 2
  }

  /** The parent index of `index`, NotDefined for the root and for negative indices. */
  function ParentIndex(index: int): (p: int)
    ensures index <= 0 ==> p == NotDefined
    ensures index > 0 ==> 0 <= p < index
    ensures index > 0 ==> index == LeftChildIndex(p) || index == RightChildIndex(p)
  {
    if index <= 0 then NotDefined else (index - 1) / 2
  }

  /** The parent of either child of `p` is `p` again. */
  lemma {:induction false} ChildParentRoundTrip(p: int)
    requires p >= 0
    ensures ParentIndex(LeftChildIndex(p)) == p
    ensures ParentIndex(RightChildIndex(p)) == p
  {}

  function HasParent(index: int): (b: bool)
    ensures b <==> index > 0
  {
    ParentIndex(index) >= 0
  }
}

=== FILE: median_spec.dfy ===
/** The classical median of a finite collection of integers, defined from its sorted
    arrangement, independently of any heap. It is the reference the running-median
    engine is proved against. */
module SortedMedian {
  import opened HeapUtils

  predicate IsSorted(s: seq<int>) {
    forall i, j :: 0 <= i < j < |s| ==> s[i] <= s[j]
  }

  /** Every element of `m` lies at or above `lo`. */
  predicate AllAtLeast(m: multiset<int>, lo: int) {
    forall y :: y in m ==> lo <= y
  }

  /** Every element of `m` lies at or below `hi`. */
  predicate AllAtMost(m: multiset<int>, hi: int) {
    forall y :: y in m ==> y <= hi
  }

  /** Each element of `lower` is at most each element of `upper`. */
  predicate Separated(lower: multiset<int>, upper: multiset<int>) {
    forall x, y :: x in lower && y in upper ==> x <= y
  }

  /** A sorted sequence stays sorted behind an element at most its first. */
  lemma ConsSorted(x: int, s: seq<int>)
    requires IsSorted(s) && (s != [] ==> x <= s[0])
    ensures IsSorted([x] + s)
  {
  }

  /** Inserts `x` into a sorted sequence, before the first element not below it. */
  function Insert(x: int, s: seq<int>): (r: seq<int>)
    requires IsSorted(s)
    ensures IsSorted(r)
    ensures multiset(r) == multiset(s) + multiset{x}
    ensures |r| == |s| + 1 && r[0] == if s == [] || x <= s[0] then x else s[0]
  {
    if s == [] || x <= s[0] then
      ConsSorted(x, s);
      [x] + s
    else
      var rest := Insert(x, s[1..]);
      assert s == [s[0]] + s[1..];
      ConsSorted(s[0], rest);
      [s[0]] + rest
  }

  /** Insertion sort: the reference arrangement of a collection of samples. */
  function Sort(s: seq<int>): (r: seq<int>)
    ensures IsSorted(r) && multiset(r) == multiset(s)
  {
    if s == [] then [] else
      assert s == [s[0]] + s[1..];
      Insert(s[0], Sort(s[1..]))
  }

  /** Two non-empty sorted sequences with the same elements start with the same one. */
  lemma SameFirst(s: seq<int>, t: seq<int>)
    requires IsSorted(s) && IsSorted(t) && multiset(s) == multiset(t) && |s| > 0 && |t| > 0
    ensures s[0] == t[0]
  {
    assert s[0] in multiset(t);
    assert t[0] in multiset(s);
  }

  /** Dropping the first element takes exactly that element out of the multiset. */
  lemma DropFirst(s: seq<int>)
    requires |s| > 0
    ensures multiset(s[1..]) == multiset(s) - multiset{s[0]}
  {
    assert s == [s[0]] + s[1..];
  }

  /** Two sorted sequences with the same elements are equal. */
  lemma {:induction false} SortedUnique(s: seq<int>, t: seq<int>)
    requires IsSorted(s) && IsSorted(t) && multiset(s) == multiset(t)
    ensures s == t
    decreases |s|
  {
    assert |t| == |multiset(t)| == |multiset(s)| == |s|;
    if |s| > 0 {
      SameFirst(s, t);
      DropFirst(s);
      DropFirst(t);
      SortedUnique(s[1..], t[1..]);
      assert s == [s[0]] + s[1..] && t == [t[0]] + t[1..];
    }
  }

  /** The middle of a sorted sequence: its middle element for an odd length, the mean
      of its two middle elements for an even length. */
  function Middle(t: seq<int>): real
    requires |t| > 0
  {
    var n := |t|;
    if n % 2 == 1 then t[n / 2] as real else Mean(t[n / 2 - 1] as real, t[n / 2] as real)
  }

  /** The classical median of a non-empty collection of samples. */
  function Median(s: seq<int>): real
    requires |s| > 0
  {
    assert |Sort(s)| == |multiset(s)| == |s|;
    Middle(Sort(s))
  }

  /** The median can be read off any sorted arrangement of the samples. */
  lemma MedianOfSorted(s: seq<int>, t: seq<int>)
    requires |s| > 0 && IsSorted(t) && multiset(t) == multiset(s)
    ensures |t| == |s| && Median(s) == Middle(t)
  {
    assert |t| == |multiset(t)| == |multiset(s)| == |s|;
    SortedUnique(Sort(s), t);
  }

  /** The median depends on the samples held, not on their order. */
  lemma MedianIgnoresOrder(s: seq<int>, t: seq<int>)
    requires |s| > 0 && multiset(s) == multiset(t)
    ensures |t| > 0 && Median(s) == Median(t)
  {
    assert |t| == |multiset(t)| == |multiset(s)| == |s|;
    MedianOfSorted(s, Sort(t));
  }

  /** In a sorted sequence the last element is the one bounding all from above. */
  lemma LastIsLargest(s: seq<int>, hi: int)
    requires IsSorted(s) && hi in multiset(s) && AllAtMost(multiset(s), hi)
    ensures s[|s| - 1] == hi
  {
    assert s[|s| - 1] in multiset(s);
    var i :| 0 <= i < |s| && s[i] == hi;
  }

  /** In a sorted sequence the first element is the one bounding all from below. */
  lemma FirstIsSmallest(s: seq<int>, lo: int)
    requires IsSorted(s) && lo in multiset(s) && AllAtLeast(multiset(s), lo)
    ensures s[0] == lo
  {
    assert s[0] in multiset(s);
    var i :| 0 <= i < |s| && s[i] == lo;
  }

  /** Two sorted, separated halves laid end to end stay sorted. */
  lemma ConcatSorted(l: seq<int>, u: seq<int>)
    requires IsSorted(l) && IsSorted(u) && Separated(multiset(l), multiset(u))
    ensures IsSorted(l + u)
  {
    forall i, j | 0 <= i < j < |l + u|
      ensures (l + u)[i] <= (l + u)[j]
    {
      if i < |l| && j >= |l| {
        assert l[i] in multiset(l);
        assert u[j - |l|] in multiset(u);
      }
    }
  }

  /** The median of two separated halves whose sizes differ by at most one: the top of
      the larger half, or the mean of the top of the lower half and the bottom of the
      upper half when the sizes are equal. This is what the two-heap method relies on. */
  lemma MedianOfHalves(lower: seq<int>, upper: seq<int>, hi: int, lo: int)
    requires Separated(multiset(lower), multiset(upper))
    requires -1 <= |lower| - |upper| <= 1 && |lower| + |upper| > 0
    requires |lower| > 0 ==> hi in lower && AllAtMost(multiset(lower), hi)
    requires |upper| > 0 ==> lo in upper && AllAtLeast(multiset(upper), lo)
    ensures Median(lower + upper) == if |lower| > |upper| then hi as real
                                     else if |lower| < |upper| then lo as real
                                     else Mean(hi as real, lo as real)
  {
    var l := Sort(lower);
    var u := Sort(upper);
    assert |l| == |multiset(l)| == |lower| && |u| == |multiset(u)| == |upper|;
    ConcatSorted(l, u);
    assert multiset(l + u) == multiset(lower + upper);
    MedianOfSorted(lower + upper, l + u);
    if |l| > 0 {
      LastIsLargest(l, hi);
    }
    if |u| > 0 {
      FirstIsSmallest(u, lo);
    }
    MiddleOfHalves(l, u);
  }

  /** The middle of `l + u` when the two lengths differ by at most one. */
  lemma MiddleOfHalves(l: seq<int>, u: seq<int>)
    requires -1 <= |l| - |u| <= 1 && |l| + |u| > 0
    ensures Middle(l + u) == if |l| > |u| then l[|l| - 1] as real
                             else if |l| < |u| then u[0] as real
                             else Mean(l[|l| - 1] as real, u[0] as real)
  {
  }
}

=== FILE: optional.dfy ===
/** The explicit "no value" result that replaces the source's FLOAT_MIN sentinel
    at every boundary (peek, poll, the median). */
module Optional {

  datatype Option<+T> = None | Some(value: T) {

    /** The value held, or `default` when there is none. */
    function GetOr(default: T): T {
      match this
      case Some(v) => v
      case None => default
    }
  }
}

=== FILE: recursive_heap.dfy ===
/** The older heap of src/Heap.cpp. It keeps the same state, peek, size, find and
    reset as the Arduino heap (the code is identical) but restores order with a
    recursive sift-up `heapify(index)` only, and `poll` re-heapifies by sifting up from
    the parent of the old last slot. */
module RecursiveHeap {
  import opened Optional
  import opened HeapUtils
  import opened ArduinoHeap

  /** Two arrays that agree from slot `k` on and have the same multiset below `k`
      also agree on every longer prefix. */
  lemma PrefixMultisetExtend(r: seq<int>, s: seq<int>, k: int, n: int)
    requires |r| == |s| && 0 <= k <= n <= |s|
    requires forall i :: k <= i < |r| ==> r[i] == s[i]
    requires multiset(r[..k]) == multiset(s[..k])
    ensures multiset(r[..n]) == multiset(s[..n])
  {
    assert r[..n] == r[..k] + r[k..n];
    assert s[..n] == s[..k] + s[k..n];
    assert r[k..n] == s[k..n];
  }

  /** One swap of sift-up followed by the rest of the sift-up from the parent moves
      nothing after `index` and keeps the multiset up to `index`. */
  lemma SiftUpFrame(a: seq<int>, swapped: seq<int>, r: seq<int>, index: int, parent: int)
    requires |a| == |swapped| == |r| && 0 <= parent < index < |a|
    requires swapped[index + 1..] == a[index + 1..]
    requires multiset(swapped[..index + 1]) == multiset(a[..index + 1])
    requires forall k :: 0 <= k < |a| && parent < k ==> r[k] == swapped[k]
    requires multiset(r[..parent + 1]) == multiset(swapped[..parent + 1])
    ensures forall k :: 0 <= k < |a| && index < k ==> r[k] == a[k]
    ensures multiset(r[..index + 1]) == multiset(a[..index + 1])
  {
    PrefixMultisetExtend(r, swapped, parent + 1, index + 1);
    forall k | index < k < |a|
      ensures r[k] == a[k]
    {
      assert a[k] == a[index + 1..][k - index - 1];
    }
  }

  /** heapify(index): while the slot at `index` is favoured over its parent, swap the
      two and continue from the parent. Only `index` and its ancestors move, so the
      slots after `index` stay and the first `index + 1` keep their multiset. A negative
      index or the root changes nothing. */
  function Heapify(c: Comparator, a: seq<int>, index: int): (r: seq<int>)
    requires index < |a|
    ensures |r| == |a|
    ensures index <= 0 ==> r == a
    ensures forall k :: 0 <= k < |a| && index < k ==> r[k] == a[k]
    ensures 0 <= index ==> multiset(r[..index + 1]) == multiset(a[..index + 1])
    decreases index
  {
    var parent := ParentIndex(index);
    if parent >= 0 && Compare(c, a[index], a[parent]) then
      var swapped := a[index := a[parent]][parent := a[index]];
      assert swapped == Swap(a, index, parent);
      SwapInPrefix(a, index, parent, index + 1);
      var r := Heapify(c, swapped, parent);
      SiftUpFrame(a, swapped, r, index, parent);
      r
    else
      a
  }

  /** Sift-up from `index` turns the sift-up state into full heap order. */
  lemma {:induction false} HeapifyRestoresOrder(c: Comparator, a: seq<int>, index: int, n: int)
    requires 0 <= index < n <= |a| && OrderedExceptUp(c, a, n, index)
    ensures Ordered(c, Heapify(c, a, index), n)
    decreases index
  {
    var parent := ParentIndex(index);
    if parent >= 0 && Compare(c, a[index], a[parent]) {
      SiftUpStep(c, a, n, index);
      assert Swap(a, parent, index) == Swap(a, index, parent);
      HeapifyRestoresOrder(c, Swap(a, index, parent), parent, n);
    } else if index > 0 {
      ComparatorsMirror(a[index], a[parent], a[index]);
    }
  }

  /** The slots before `n` ordered, the new value at `n`: the sift-up state at `n`. */
  lemma AppendedIsSiftUpState(c: Comparator, a: seq<int>, n: int, key: int)
    requires 0 <= n < |a| && Ordered(c, a, n)
    ensures OrderedExceptUp(c, a[n := key], n + 1, n)
  {
  }

  /** The array add() leaves: `key` written into slot `n` and sifted up from there. Its
      first `n + 1` slots hold the first `n` of `a` plus `key`, in heap order when the
      first `n` of `a` were. */
  lemma SiftInKey(c: Comparator, a: seq<int>, n: int, key: int)
    requires 0 <= n < |a|
    ensures |Heapify(c, a[n := key], n)| == |a|
    ensures multiset(Heapify(c, a[n := key], n)[..n + 1]) == multiset(a[..n]) + multiset{key}
    ensures Ordered(c, a, n) ==> Ordered(c, Heapify(c, a[n := key], n), n + 1)
  {
    AppendToPrefix(a, n, key);
    if Ordered(c, a, n) {
      AppendedIsSiftUpState(c, a, n, key);
      HeapifyRestoresOrder(c, a[n := key], n, n + 1);
    }
  }

  /** The heap after a successful add(key): `key` written into the first free slot,
      which becomes the last-inserted index, and sifted up with heapify. */
  function Inserted(h: Heap, key: int): (h': Heap)
    requires Valid(h) && Size(h) < Capacity(h)
    ensures Valid(h') && h'.comparator == h.comparator && Capacity(h') == Capacity(h)
    ensures Size(h') == Size(h) + 1 && h'.lastInsertedIndex == Size(h)
    ensures Live(h') == Live(h) + multiset{key}
    ensures HeapOrdered(h) ==> HeapOrdered(h')
  {
    var n := h.currentIndex + 1;
    SiftInKey(h.comparator, h.heapArray, n, key);
    Heap(Heapify(h.comparator, h.heapArray[n := key], n), h.comparator, n, n)
  }

  /** add(key): succeeds exactly when there is a free slot. The live multiset gains
      exactly `key` and heap order is kept; a failed add changes nothing. */
  function Add(h: Heap, key: int): (r: (Heap, bool))
    requires Valid(h)
    ensures Valid(r.0) && r.0.comparator == h.comparator && Capacity(r.0) == Capacity(h)
    ensures r.1 <==> Size(h) < Capacity(h)
    ensures !r.1 ==> r.0 == h
    ensures r.1 ==> Size(r.0) == Size(h) + 1 && r.0.lastInsertedIndex == Size(h)
    ensures r.1 ==> Live(r.0) == Live(h) + multiset{key}
    ensures HeapOrdered(h) ==> HeapOrdered(r.0)
  {
    if h.currentIndex + 1 < |h.heapArray| then (Inserted(h, key), true) else (h, false)
  }

  /** The array poll() leaves: the root swapped with slot `last` and heapify called on
      the parent of `last`. Its first `last` slots hold the old live elements minus the root. */
  function PolledArray(c: Comparator, a: seq<int>, last: int): (b: seq<int>)
    requires 0 <= last < |a|
    ensures |b| == |a|
    ensures multiset(b[..last]) == multiset(a[..last + 1]) - multiset{a[0]}
  {
    var swapped := Swap(a, 0, last);
    SwapRootWithLast(c, a, last);
    var parent := ParentIndex(last);
    var b := Heapify(c, swapped, parent);
    if parent >= 0 then
      PrefixMultisetExtend(b, swapped, parent + 1, last);
      b
    else
      assert b == swapped;
      b
  }

  /** A non-empty heap whose live prefix, minus the root, is rearranged into the first
      `currentIndex` slots of `b`: with `b` as storage and one slot fewer it is the heap
      poll() leaves, holding the old live elements minus the root, which peek() returned. */
  lemma PolledHeap(h: Heap, b: seq<int>)
    requires Valid(h) && h.currentIndex >= 0 && |b| == |h.heapArray|
    requires multiset(b[..h.currentIndex]) == multiset(h.heapArray[..h.currentIndex + 1]) - multiset{h.heapArray[0]}
    ensures var h' := h.(heapArray := b, currentIndex := h.currentIndex - 1);
            && Valid(h') && Capacity(h') == Capacity(h) && h'.lastInsertedIndex == h.lastInsertedIndex
            && Size(h') == Size(h) - 1 && Live(h') == Live(h) - multiset{h.heapArray[0]}
    ensures Peek(h) == Some(h.heapArray[0])
  {
  }

  /** poll(): returns the root (None when empty), swaps it with the last live slot,
      shrinks the heap and calls heapify on the parent of the old last slot. The
      returned value and the live multiset are right; heap order is not restored,
      see PollLosesOrder. */
  function Poll(h: Heap): (r: (Heap, Option<int>))
    requires Valid(h)
    ensures Valid(r.0) && r.0.comparator == h.comparator && Capacity(r.0) == Capacity(h)
    ensures r.0.lastInsertedIndex == h.lastInsertedIndex
    ensures r.1 == Peek(h)
    ensures Size(h) == 0 ==> r.0 == h
    ensures Size(h) > 0 ==> Size(r.0) == Size(h) - 1 && Live(r.0) == Live(h) - multiset{r.1.value}
  {
    if h.currentIndex != NotDefined then
      var last := h.currentIndex;
      var b := PolledArray(h.comparator, h.heapArray, last);
      PolledHeap(h, b);
      (h.(heapArray := b, currentIndex := last - 1), Some(h.heapArray[0]))
    else
      (h, None)
  }

  /** What poll() computes on a non-empty heap, spelled out. */
  lemma PollOfNonEmpty(h: Heap)
    requires Valid(h) && h.currentIndex >= 0
    ensures Poll(h).0 == h.(heapArray := PolledArray(h.comparator, h.heapArray, h.currentIndex),
                            currentIndex := h.currentIndex - 1)
    ensures Poll(h).1 == Some(h.heapArray[0])
  {
  }

  /** The array poll() leaves is that of heapify on the parent of the old last slot,
      after the swap of that slot with the root. */
  lemma PolledArrayIsHeapify(c: Comparator, a: seq<int>, last: int)
    requires 0 <= last < |a|
    ensures PolledArray(c, a, last) == Heapify(c, Swap(a, 0, last), ParentIndex(last))
  {
  }

  /** The array findAndUpdateElement() leaves: slot `j` overwritten with `v` and sifted
      up from there. Its first `n` slots hold those of `a` with `a[j]` replaced by `v`, in
      heap order when `a`'s were and `v` is favoured over `a[j]`. */
  lemma ReplaceAndSiftUp(c: Comparator, a: seq<int>, j: int, n: int, v: int)
    requires 0 <= j < n <= |a|
    ensures |Heapify(c, a[j := v], j)| == |a|
    ensures multiset(Heapify(c, a[j := v], j)[..n]) == multiset(a[..n]) - multiset{a[j]} + multiset{v}
    ensures Ordered(c, a, n) && Compare(c, v, a[j]) ==> Ordered(c, Heapify(c, a[j := v], j), n)
  {
    ReplaceKeepsOthers(c, a, j, n, v);
    if Ordered(c, a, n) && Compare(c, v, a[j]) {
      RaiseKeepsOrderExceptUp(c, a, n, j, v);
      HeapifyRestoresOrder(c, a[j := v], j, n);
    }
  }

  lemma ReplaceKeepsOthers(c: Comparator, a: seq<int>, j: int, n: int, v: int)
    requires 0 <= j < n <= |a|
    ensures multiset(Heapify(c, a[j := v], j)[..n]) == multiset(a[..n]) - multiset{a[j]} + multiset{v}
  {
    var w: seq<int> := a[j := v];
    var b: seq<int> := Heapify(c, w, j);
    OverwriteInPrefix(a, j, n, v);
    var k: int := j + 1;
    assert |b| == |w| && multiset(b[..k]) == multiset(w[..k]);
    PrefixMultisetExtend(b, w, k, n);
    assert |b| == |w| && multiset(b[..n]) == multiset(w[..n]);
  }

  /** findAndUpdateElement(old, new): false and no change when `old` is not live;
      otherwise `new` replaces the first `old` and is sifted up from that slot: the size
      and last-inserted index stay and the live multiset has one `old` replaced by `new`.
      Heap order survives when `new` is favoured over `old` (sift-up is then enough). */
  function FindAndUpdateElement(h: Heap, oldElement: int, newElement: int): (r: (Heap, bool))
    requires Valid(h)
    ensures Valid(r.0) && r.0.comparator == h.comparator && Capacity(r.0) == Capacity(h)
    ensures r.1 <==> oldElement in Live(h)
    ensures !r.1 ==> r.0 == h
    ensures r.1 ==> Size(r.0) == Size(h) && r.0.lastInsertedIndex == h.lastInsertedIndex
    ensures r.1 ==> Live(r.0) == Live(h) - multiset{oldElement} + multiset{newElement}
    ensures r.1 && HeapOrdered(h) && Compare(h.comparator, newElement, oldElement) ==> HeapOrdered(r.0)
  {
    var index := Find(h, oldElement);
    if index != NotDefined then
      ReplaceAndSiftUp(h.comparator, h.heapArray, index, Size(h), newElement);
      (h.(heapArray := Heapify(h.comparator, h.heapArray[index := newElement], index)), true)
    else
      (h, false)
  }

  /** deleteLazy(element): polls and returns true when `element` equals peek() (FLOAT_MIN
      for an empty heap). Otherwise, when `element` is live and a last-inserted index is
      defined, copies that slot over the first match, calls heapify on the parent of the
      last-inserted slot, writes FLOAT_MIN into the last-inserted slot, forgets the index
      and returns true without shrinking. Anything else returns false and changes nothing. */
  function DeleteLazy(h: Heap, element: int): (r: (Heap, bool))
    requires Valid(h)
    ensures Valid(r.0) && r.0.comparator == h.comparator && Capacity(r.0) == Capacity(h)
    ensures Size(h) == 0 ==> r.0 == h && (r.1 <==> element == FloatMin)
    ensures Size(h) > 0 && element == h.heapArray[0] ==>
              && r.1 && r.0 == Poll(h).0 && r.0.lastInsertedIndex == h.lastInsertedIndex
              && Size(r.0) == Size(h) - 1 && Live(r.0) == Live(h) - multiset{element}
    ensures Size(h) > 0 && element != h.heapArray[0] ==>
              && (r.1 <==> element in Live(h) && h.lastInsertedIndex != NotDefined)
              && Size(r.0) == Size(h)
              && (r.1 ==> r.0.lastInsertedIndex == NotDefined)
              && (!r.1 ==> r.0 == h)
  {
    if element == Peek(h).GetOr(FloatMin) then
      (Poll(h).0, true)
    else
      var index := Find(h, element);
      if index != NotDefined && h.lastInsertedIndex != NotDefined then
        var a := h.heapArray[index := h.heapArray[h.lastInsertedIndex]];
        var b := Heapify(h.comparator, a, ParentIndex(h.lastInsertedIndex));
        (h.(heapArray := b[h.lastInsertedIndex := FloatMin], lastInsertedIndex := NotDefined), true)
      else
        (h, false)
  }

  /** The max-heap built by adding 4, 2, 3 and 1. */
  function FourTwoThreeOne(): Heap {
    Heap([4, 2, 3, 1], MaxOrder, 3, 3)
  }

  /** The first poll of [4, 2, 3, 1]: the last slot's 1 goes to the root, heapify starts
      at the last slot's parent (slot 1) and swaps 2 up, leaving the live prefix [2, 1, 3]. */
  lemma FirstPollOfFourTwoThreeOne()
    ensures Poll(FourTwoThreeOne()) == (Heap([2, 1, 3, 4], MaxOrder, 2, 3), Some(4))
  {
    PollOfNonEmpty(FourTwoThreeOne());
    PolledArrayIsHeapify(MaxOrder, [4, 2, 3, 1], 3);
    assert ParentIndex(3) == 1 && ParentIndex(1) == 0;
    assert Swap([4, 2, 3, 1], 0, 3) == [1, 2, 3, 4];
    assert [1, 2, 3, 4][1 := 1][0 := 2] == [2, 1, 3, 4];
    assert Heapify(MaxOrder, [2, 1, 3, 4], 0) == [2, 1, 3, 4];
    assert Heapify(MaxOrder, [1, 2, 3, 4], 1) == [2, 1, 3, 4];
  }

  /** The second poll: 3 goes to the root and heapify starts at slot 0, which has no
      parent, so [3, 1] stays as it is. */
  lemma SecondPollOfFourTwoThreeOne()
    ensures Poll(Heap([2, 1, 3, 4], MaxOrder, 2, 3)) == (Heap([3, 1, 2, 4], MaxOrder, 1, 3), Some(2))
  {
    PollOfNonEmpty(Heap([2, 1, 3, 4], MaxOrder, 2, 3));
    PolledArrayIsHeapify(MaxOrder, [2, 1, 3, 4], 2);
    assert ParentIndex(2) == 0;
    assert Swap([2, 1, 3, 4], 0, 2) == [3, 1, 2, 4];
    assert Heapify(MaxOrder, [3, 1, 2, 4], 0) == [3, 1, 2, 4];
  }

  /** [4, 2, 3, 1] is a valid, ordered max-heap of four elements. */
  lemma FourTwoThreeOneIsOrdered()
    ensures Valid(FourTwoThreeOne()) && HeapOrdered(FourTwoThreeOne())
    ensures Live(FourTwoThreeOne()) == multiset{4, 2, 3, 1}
  {
    assert ParentIndex(3) == 1 && ParentIndex(1) == 0 && ParentIndex(2) == 0;
    assert FourTwoThreeOne().heapArray[..4] == [4, 2, 3, 1];
  }

  /** poll() breaks heap order: on the ordered max-heap [4, 2, 3, 1] it returns 4 and
      leaves [2, 1, 3], whose root 2 is below its child 3, so the next poll returns 2
      while 3 is still in the heap. */
  lemma PollLosesOrder()
    ensures Valid(FourTwoThreeOne()) && HeapOrdered(FourTwoThreeOne())
    ensures Poll(FourTwoThreeOne()).1 == Some(4)
    ensures !HeapOrdered(Poll(FourTwoThreeOne()).0)
    ensures Poll(Poll(FourTwoThreeOne()).0).1 == Some(2)
    ensures 3 in Live(Poll(Poll(FourTwoThreeOne()).0).0)
  {
    FourTwoThreeOneIsOrdered();
    FirstPollOfFourTwoThreeOne();
    SecondPollOfFourTwoThreeOne();
    assert ParentIndex(2) == 0;
    var h2 := Heap([3, 1, 2, 4], MaxOrder, 1, 3);
    assert h2.heapArray[..Size(h2)][0] == 3;
  }

  /** findAndUpdateElement lowering the root: on the ordered max-heap [5, 3], updating 5
      to 1 writes 1 into the root, where the sift-up starts and ends, so the heap becomes
      [1, 3], out of order. */
  lemma UpdateOfRootLosesOrder()
    ensures Valid(Heap([5, 3], MaxOrder, 1, 1)) && HeapOrdered(Heap([5, 3], MaxOrder, 1, 1))
    ensures FindAndUpdateElement(Heap([5, 3], MaxOrder, 1, 1), 5, 1) == (Heap([1, 3], MaxOrder, 1, 1), true)
    ensures !HeapOrdered(Heap([1, 3], MaxOrder, 1, 1))
  {
    assert ParentIndex(1) == 0;
    assert Find(Heap([5, 3], MaxOrder, 1, 1), 5) == 0;
    assert [5, 3][0 := 1] == [1, 3];
    assert Heapify(MaxOrder, [1, 3], 0) == [1, 3];
  }

  /** The four adds that build [4, 2, 3, 1]: each new key is at most its parent, so
      heapify leaves it in the appended slot. */
  lemma FirstAddOfFourTwoThreeOne()
    ensures Add(New(4, MaxOrder), 4) == (Heap([4, FloatMin, FloatMin, FloatMin], MaxOrder, 0, 0), true)
  {
    assert New(4, MaxOrder).heapArray[0 := 4] == [4, FloatMin, FloatMin, FloatMin];
  }

  lemma SecondAddOfFourTwoThreeOne()
    ensures Add(Heap([4, FloatMin, FloatMin, FloatMin], MaxOrder, 0, 0), 2)
            == (Heap([4, 2, FloatMin, FloatMin], MaxOrder, 1, 1), true)
  {
    assert ParentIndex(1) == 0;
    assert [4, FloatMin, FloatMin, FloatMin][1 := 2] == [4, 2, FloatMin, FloatMin];
    assert Heapify(MaxOrder, [4, 2, FloatMin, FloatMin], 1) == [4, 2, FloatMin, FloatMin];
  }

  lemma ThirdAddOfFourTwoThreeOne()
    ensures Add(Heap([4, 2, FloatMin, FloatMin], MaxOrder, 1, 1), 3)
            == (Heap([4, 2, 3, FloatMin], MaxOrder, 2, 2), true)
  {
    assert ParentIndex(2) == 0;
    assert [4, 2, FloatMin, FloatMin][2 := 3] == [4, 2, 3, FloatMin];
    assert Heapify(MaxOrder, [4, 2, 3, FloatMin], 2) == [4, 2, 3, FloatMin];
  }

  lemma FourthAddOfFourTwoThreeOne()
    ensures Add(Heap([4, 2, 3, FloatMin], MaxOrder, 2, 2), 1) == (FourTwoThreeOne(), true)
  {
    assert ParentIndex(3) == 1;
    assert [4, 2, 3, FloatMin][3 := 1] == [4, 2, 3, 1];
    assert Heapify(MaxOrder, [4, 2, 3, 1], 3) == [4, 2, 3, 1];
  }

  /** FourTwoThreeOne is what four successful adds build from an empty heap. */
  lemma FourTwoThreeOneIsReachable()
    ensures Add(Add(Add(Add(New(4, MaxOrder), 4).0, 2).0, 3).0, 1).0 == FourTwoThreeOne()
  {
    FirstAddOfFourTwoThreeOne();
    SecondAddOfFourTwoThreeOne();
    ThirdAddOfFourTwoThreeOne();
    FourthAddOfFourTwoThreeOne();
  }
}

=== FILE: running_median.dfy ===
/** The running median of src/RunningMedian.cpp: a max-heap holds the lower half of the
    samples and a min-heap the upper half, their sizes differ by at most one, and the
    median is read off the two roots. The engine is composed with the heap of
    arduino/Heap.cpp, whose poll keeps heap order (RecursiveHeap.PollLosesOrder shows
    that the other heap's poll does not). */
module RunningMedian {
  import opened Optional
  import opened HeapUtils
  import opened SortedMedian
  import Arduino = ArduinoHeap

  /** The fields of class RunningMedian: the left (max) heap, the right (min) heap and
      the last median computed, a float that is FLOAT_MIN before the first sample. */
  datatype Engine = Engine(maxHeap: Arduino.Heap, minHeap: Arduino.Heap, median: real)

  /** The shape the constructor gives: two valid heaps, the left one ordered by
      greaterOrEqual and the right one by lessOrEqual. */
  predicate WellFormed(e: Engine) {
    && Arduino.Valid(e.maxHeap) && Arduino.Valid(e.minHeap)
    && e.maxHeap.comparator == MaxOrder && e.minHeap.comparator == MinOrder
  }

  /** peek() as the engine reads it: the root, or FLOAT_MIN for an empty heap. */
  function Root(h: Arduino.Heap): real
    requires Arduino.Valid(h)
  {
    Arduino.Peek(h).GetOr(FloatMin) as real
  }

  /** The live samples of one heap, in slot order. */
  function Samples(h: Arduino.Heap): (s: seq<int>)
    requires Arduino.Valid(h)
    ensures multiset(s) == Arduino.Live(h) && |s| == Arduino.Size(h)
  {
    h.heapArray[..Arduino.Size(h)]
  }

  /** All samples the engine holds, the left heap's first. */
  function Contents(e: Engine): (s: seq<int>)
    requires WellFormed(e)
    ensures multiset(s) == Arduino.Live(e.maxHeap) + Arduino.Live(e.minHeap)
    ensures |s| == Arduino.Size(e.maxHeap) + Arduino.Size(e.minHeap)
  {
    Samples(e.maxHeap) + Samples(e.minHeap)
  }

  /** The median the two roots give: the root of the larger heap, or the mean of both
      roots when the sizes are equal (FLOAT_MIN when both are empty). */
  function RootMedian(e: Engine): real
    requires WellFormed(e)
  {
    var left, right := Arduino.Size(e.maxHeap), Arduino.Size(e.minHeap);
    if left > right then Root(e.maxHeap)
    else if left < right then Root(e.minHeap)
    else Mean(Root(e.maxHeap), Root(e.minHeap))
  }

  /** Every sample is a 32-bit int. */
  predicate AllSamples(m: multiset<int>) {
    forall x :: x in m ==> IsInt32(x)
  }

  /** `lower` and `upper` as the engine keeps its two halves: `lower` a max-heap and
      `upper` a min-heap, both heap-ordered, every sample of `lower` at most every
      sample of `upper`. */
  predicate Halves(lower: Arduino.Heap, upper: Arduino.Heap)
    requires Arduino.Valid(lower) && Arduino.Valid(upper)
  {
    && lower.comparator == MaxOrder && upper.comparator == MinOrder
    && Arduino.HeapOrdered(lower) && Arduino.HeapOrdered(upper)
    && Separated(Arduino.Live(lower), Arduino.Live(upper))
  }

  /** Two heaps of equal capacity whose sizes differ by at most one: the promise of
      src/RunningMedian.h that every operation keeps, whatever the heaps hold. */
  predicate SizesClose(e: Engine)
    requires WellFormed(e)
  {
    && Arduino.Capacity(e.maxHeap) == Arduino.Capacity(e.minHeap)
    && -1 <= Arduino.Size(e.maxHeap) - Arduino.Size(e.minHeap) <= 1
  }

  /** The samples split into two separated halves of equal capacity whose sizes differ
      by at most one, every sample a 32-bit int, whatever order each heap is in. */
  predicate Split(e: Engine) {
    && WellFormed(e)
    && SizesClose(e)
    && Separated(Arduino.Live(e.maxHeap), Arduino.Live(e.minHeap))
    && AllSamples(Arduino.Live(e.maxHeap)) && AllSamples(Arduino.Live(e.minHeap))
  }

  /** The shape of the two heaps that the engine's own operations keep: a split into
      halves that are also heap-ordered. */
  predicate Balanced(e: Engine) {
    Split(e) && Halves(e.maxHeap, e.minHeap)
  }

  /** The running-median invariant: balanced heaps and the stored median the one the
      roots give. */
  predicate Inv(e: Engine) {
    Balanced(e) && e.median == RootMedian(e)
  }

  /** Both heaps at capacity: the next add fails. */
  predicate Full(e: Engine)
    requires WellFormed(e)
  {
    && Arduino.Size(e.maxHeap) == Arduino.Capacity(e.maxHeap)
    && Arduino.Size(e.minHeap) == Arduino.Capacity(e.minHeap)
  }

  /** Under the invariant the stored median is the classical median of the samples held,
      and it lies above FLOAT_MIN; with no samples it is FLOAT_MIN. */
  lemma MedianIsClassical(e: Engine)
    requires Inv(e)
    ensures |Contents(e)| == 0 ==> e.median == FloatMin as real
    ensures |Contents(e)| > 0 ==> e.median == Median(Contents(e)) && FloatMin as real < e.median
  {
    var lower, upper := e.maxHeap, e.minHeap;
    var hi, lo := Arduino.Peek(lower).GetOr(0), Arduino.Peek(upper).GetOr(0);
    if |Contents(e)| > 0 {
      MedianOfHalves(Samples(lower), Samples(upper), hi, lo);
    }
  }

  /** The constructor RunningMedian(array_size): two empty heaps of `arraySize` slots and
      the median FLOAT_MIN. */
  function Create(arraySize: nat): (e: Engine)
    ensures Inv(e) && |Contents(e)| == 0 && e.median == FloatMin as real
    ensures Arduino.Capacity(e.maxHeap) == arraySize && Arduino.Capacity(e.minHeap) == arraySize
  {
    Engine(Arduino.New(arraySize, MaxOrder), Arduino.New(arraySize, MinOrder), FloatMin as real)
  }

  /** reset(): both heaps reset and the median back to FLOAT_MIN; the storage is kept. */
  function Reset(e: Engine): (e': Engine)
    requires WellFormed(e)
    ensures WellFormed(e') && |Contents(e')| == 0 && e'.median == FloatMin as real
    ensures Arduino.Capacity(e'.maxHeap) == Arduino.Capacity(e.maxHeap)
    ensures Arduino.Capacity(e'.minHeap) == Arduino.Capacity(e.minHeap)
    ensures Arduino.Capacity(e.maxHeap) == Arduino.Capacity(e.minHeap) ==> Inv(e')
  {
    Engine(Arduino.Reset(e.maxHeap), Arduino.Reset(e.minHeap), FloatMin as real)
  }

  /** After reset() the engine is, up to the storage it keeps, a freshly built one. */
  lemma ResetIsCreate(e: Engine)
    requires WellFormed(e)
    ensures var c := Create(Arduino.Capacity(e.maxHeap));
            Reset(e) == c.(maxHeap := c.maxHeap.(heapArray := e.maxHeap.heapArray),
                           minHeap := Create(Arduino.Capacity(e.minHeap)).minHeap.(heapArray := e.minHeap.heapArray))
  {
  }

  /** A sample below every right sample may join the left half. */
  lemma JoinLower(lower: multiset<int>, upper: multiset<int>, x: int)
    requires Separated(lower, upper) && AllAtLeast(upper, x)
    ensures Separated(lower + multiset{x}, upper)
  {
  }

  /** A sample above every left sample may join the right half. */
  lemma JoinUpper(lower: multiset<int>, upper: multiset<int>, x: int)
    requires Separated(lower, upper) && AllAtMost(lower, x)
    ensures Separated(lower, upper + multiset{x})
  {
  }

  /** Moving the top `m` of the left half to the right half and adding a sample `x` at
      most `m` to the left half keeps the halves separated. */
  lemma ShiftUp(lower: multiset<int>, upper: multiset<int>, m: int, x: int)
    requires Separated(lower, upper) && m in lower && AllAtMost(lower, m) && x <= m
    ensures Separated(lower - multiset{m} + multiset{x}, upper + multiset{m})
  {
  }

  /** Moving the bottom `m` of the right half to the left half and adding a sample `x` at
      least `m` to the right half keeps the halves separated. */
  lemma ShiftDown(lower: multiset<int>, upper: multiset<int>, m: int, x: int)
    requires Separated(lower, upper) && m in upper && AllAtLeast(upper, m) && m <= x
    ensures Separated(lower + multiset{m}, upper - multiset{m} + multiset{x})
  {
  }

  /** The left and right samples of `e'` are those of `e` plus `element`. */
  predicate GainedOne(e: Engine, e': Engine, element: int)
    requires WellFormed(e) && WellFormed(e')
  {
    Arduino.Live(e'.maxHeap) + Arduino.Live(e'.minHeap)
      == Arduino.Live(e.maxHeap) + Arduino.Live(e.minHeap) + multiset{element}
  }

  /** A sample `m` of one collection handed to the other, with `x` joining the first:
      together they gain exactly `x`. */
  lemma HandedOver(kept: multiset<int>, from: multiset<int>, m: int, x: int)
    requires m in from
    ensures (kept + multiset{m}) + (from - multiset{m} + multiset{x}) == kept + from + multiset{x}
    ensures (from - multiset{m} + multiset{x}) + (kept + multiset{m}) == from + kept + multiset{x}
  {
  }

  /** The left root `top` moved right and `element` at most `top` added left: from an
      engine keeping the invariant with the left heap larger, this leaves equal sizes
      and the invariant, with the mean of the roots as median. */
  lemma ShiftUpKeepsInv(e: Engine, e': Engine, top: int, element: Int32)
    requires Inv(e) && WellFormed(e') && Arduino.Size(e.maxHeap) > Arduino.Size(e.minHeap)
    requires Arduino.HeapOrdered(e'.maxHeap) && Arduino.HeapOrdered(e'.minHeap)
    requires Arduino.Capacity(e'.maxHeap) == Arduino.Capacity(e.maxHeap)
    requires Arduino.Capacity(e'.minHeap) == Arduino.Capacity(e.minHeap)
    requires top in Arduino.Live(e.maxHeap) && AllAtMost(Arduino.Live(e.maxHeap), top) && element <= top
    requires Arduino.Live(e'.maxHeap) == Arduino.Live(e.maxHeap) - multiset{top} + multiset{element}
    requires Arduino.Live(e'.minHeap) == Arduino.Live(e.minHeap) + multiset{top}
    requires e'.median == Mean(Root(e'.maxHeap), Root(e'.minHeap))
    ensures Inv(e') && GainedOne(e, e', element)
    ensures Arduino.Size(e'.maxHeap) == Arduino.Size(e'.minHeap)
  {
    var lower, upper := Arduino.Live(e.maxHeap), Arduino.Live(e.minHeap);
    ShiftUp(lower, upper, top, element);
    assert |Arduino.Live(e'.maxHeap)| == |lower| && |Arduino.Live(e'.minHeap)| == |upper| + 1;
  }

  /** `element` added to the left heap when it is below the stored median and the left
      heap is not the larger one: the invariant survives, with the median the roots give. */
  lemma JoinLowerKeepsInv(e: Engine, e': Engine, element: Int32)
    requires Inv(e) && WellFormed(e') && Arduino.Size(e.maxHeap) <= Arduino.Size(e.minHeap)
    requires (element as real) < e.median
    requires Arduino.HeapOrdered(e'.maxHeap) && e'.minHeap == e.minHeap
    requires Arduino.Capacity(e'.maxHeap) == Arduino.Capacity(e.maxHeap)
    requires Arduino.Live(e'.maxHeap) == Arduino.Live(e.maxHeap) + multiset{element}
    requires e'.median == RootMedian(e')
    ensures Inv(e') && GainedOne(e, e', element)
  {
    var lower, upper := Arduino.Live(e.maxHeap), Arduino.Live(e.minHeap);
    if |upper| > 0 {
      var lo := Arduino.Peek(e.minHeap).value;
      if |lower| > 0 {
        assert Arduino.Peek(e.maxHeap).value <= lo;
      }
      assert AllAtLeast(upper, lo);
    }
    JoinLower(lower, upper, element);
    assert |Arduino.Live(e'.maxHeap)| == |lower| + 1;
  }

  /** `element` added to the right heap when it is not below the stored median and the
      right heap is not the larger one: the invariant survives, with the median the roots
      give. */
  lemma JoinUpperKeepsInv(e: Engine, e': Engine, element: Int32)
    requires Inv(e) && WellFormed(e') && Arduino.Size(e.minHeap) <= Arduino.Size(e.maxHeap)
    requires (element as real) >= e.median
    requires Arduino.HeapOrdered(e'.minHeap) && e'.maxHeap == e.maxHeap
    requires Arduino.Capacity(e'.minHeap) == Arduino.Capacity(e.minHeap)
    requires Arduino.Live(e'.minHeap) == Arduino.Live(e.minHeap) + multiset{element}
    requires e'.median == RootMedian(e')
    ensures Inv(e') && GainedOne(e, e', element)
  {
    var lower, upper := Arduino.Live(e.maxHeap), Arduino.Live(e.minHeap);
    if |lower| > 0 {
      var hi := Arduino.Peek(e.maxHeap).value;
      if |upper| > 0 {
        assert hi <= Arduino.Peek(e.minHeap).value;
      }
      assert AllAtMost(lower, hi);
    }
    JoinUpper(lower, upper, element);
    assert |Arduino.Live(e'.minHeap)| == |upper| + 1;
  }

  /** The right root `bottom` moved left and `element` at least `bottom` added right:
      from an engine keeping the invariant with the right heap larger, this leaves equal
      sizes and the invariant, with the mean of the roots as median. */
  lemma ShiftDownKeepsInv(e: Engine, e': Engine, bottom: int, element: Int32)
    requires Inv(e) && WellFormed(e') && Arduino.Size(e.maxHeap) < Arduino.Size(e.minHeap)
    requires Arduino.HeapOrdered(e'.maxHeap) && Arduino.HeapOrdered(e'.minHeap)
    requires Arduino.Capacity(e'.maxHeap) == Arduino.Capacity(e.maxHeap)
    requires Arduino.Capacity(e'.minHeap) == Arduino.Capacity(e.minHeap)
    requires bottom in Arduino.Live(e.minHeap) && AllAtLeast(Arduino.Live(e.minHeap), bottom) && bottom <= element
    requires Arduino.Live(e'.maxHeap) == Arduino.Live(e.maxHeap) + multiset{bottom}
    requires Arduino.Live(e'.minHeap) == Arduino.Live(e.minHeap) - multiset{bottom} + multiset{element}
    requires e'.median == Mean(Root(e'.maxHeap), Root(e'.minHeap))
    ensures Inv(e') && GainedOne(e, e', element)
    ensures Arduino.Size(e'.maxHeap) == Arduino.Size(e'.minHeap)
  {
    var lower, upper := Arduino.Live(e.maxHeap), Arduino.Live(e.minHeap);
    ShiftDown(lower, upper, bottom, element);
    assert |Arduino.Live(e'.maxHeap)| == |lower| + 1 && |Arduino.Live(e'.minHeap)| == |upper|;
  }

  /** Case 1 of getMedian(element), the left heap larger: an element below the stored
      median replaces the left root, which moves right; any other element goes right.
      The stored median becomes the mean of the two roots. */
  method AddWhenLeftLarger(e: Engine, element: Int32) returns (e': Engine, added: bool)
    requires WellFormed(e) && Arduino.Size(e.maxHeap) > Arduino.Size(e.minHeap)
    ensures WellFormed(e') && e'.median == Mean(Root(e'.maxHeap), Root(e'.minHeap))
    ensures added <==> Arduino.Size(e.minHeap) < Arduino.Capacity(e.minHeap)
    ensures added ==> && GainedOne(e, e', element)
                      && Arduino.Size(e'.maxHeap) == Arduino.Size(e.maxHeap)
                      && Arduino.Size(e'.minHeap) == Arduino.Size(e.minHeap) + 1
    ensures Inv(e) ==> added && Inv(e') && GainedOne(e, e', element)
    ensures Inv(e) ==> Arduino.Size(e'.maxHeap) == Arduino.Size(e'.minHeap)
    ensures Arduino.Capacity(e'.maxHeap) == Arduino.Capacity(e.maxHeap) && Arduino.Capacity(e'.minHeap) == Arduino.Capacity(e.minHeap)
  {
    var maxHeap, minHeap := e.maxHeap, e.minHeap;
    if (element as real) < e.median {
      var top, addedTop, addedElement;
      maxHeap, top := Arduino.Poll(maxHeap);
      minHeap, addedTop := Arduino.Add(minHeap, top.GetOr(FloatMin));
      maxHeap, addedElement := Arduino.Add(maxHeap, element);
      added := addedTop && addedElement;
      e' := Engine(maxHeap, minHeap, Mean(Root(maxHeap), Root(minHeap)));
      if added {
        HandedOver(Arduino.Live(e.minHeap), Arduino.Live(e.maxHeap), top.value, element);
      }
      if Inv(e) {
        ShiftUpKeepsInv(e, e', top.value, element);
      }
    } else {
      minHeap, added := Arduino.Add(minHeap, element);
      e' := Engine(maxHeap, minHeap, Mean(Root(maxHeap), Root(minHeap)));
      if Inv(e) {
        JoinUpperKeepsInv(e, e', element);
      }
    }
  }

  /** Case -1 of getMedian(element), the right heap larger: an element below the stored
      median goes left; any other element replaces the right root, which moves left.
      The stored median becomes the mean of the two roots. */
  method AddWhenRightLarger(e: Engine, element: Int32) returns (e': Engine, added: bool)
    requires WellFormed(e) && Arduino.Size(e.maxHeap) < Arduino.Size(e.minHeap)
    ensures WellFormed(e') && e'.median == Mean(Root(e'.maxHeap), Root(e'.minHeap))
    ensures added <==> Arduino.Size(e.maxHeap) < Arduino.Capacity(e.maxHeap)
    ensures added ==> && GainedOne(e, e', element)
                      && Arduino.Size(e'.maxHeap) == Arduino.Size(e.maxHeap) + 1
                      && Arduino.Size(e'.minHeap) == Arduino.Size(e.minHeap)
    ensures Inv(e) ==> added && Inv(e') && GainedOne(e, e', element)
    ensures Inv(e) ==> Arduino.Size(e'.maxHeap) == Arduino.Size(e'.minHeap)
    ensures Arduino.Capacity(e'.maxHeap) == Arduino.Capacity(e.maxHeap) && Arduino.Capacity(e'.minHeap) == Arduino.Capacity(e.minHeap)
  {
    var maxHeap, minHeap := e.maxHeap, e.minHeap;
    if (element as real) < e.median {
      maxHeap, added := Arduino.Add(maxHeap, element);
      e' := Engine(maxHeap, minHeap, Mean(Root(maxHeap), Root(minHeap)));
      if Inv(e) {
        JoinLowerKeepsInv(e, e', element);
      }
    } else {
      var bottom, addedBottom, addedElement;
      minHeap, bottom := Arduino.Poll(minHeap);
      maxHeap, addedBottom := Arduino.Add(maxHeap, bottom.GetOr(FloatMin));
      minHeap, addedElement := Arduino.Add(minHeap, element);
      added := addedBottom && addedElement;
      e' := Engine(maxHeap, minHeap, Mean(Root(maxHeap), Root(minHeap)));
      if added {
        HandedOver(Arduino.Live(e.maxHeap), Arduino.Live(e.minHeap), bottom.value, element);
      }
      if Inv(e) {
        ShiftDownKeepsInv(e, e', bottom.value, element);
      }
    }
  }

  /** Case 0 of getMedian(element), equal sizes: an element below the stored median goes
      left and the median becomes the left root; any other element goes right and the
      median becomes the right root. The add fails exactly when that heap is full. */
  method AddWhenEven(e: Engine, element: Int32) returns (e': Engine, added: bool)
    requires WellFormed(e) && Arduino.Size(e.maxHeap) == Arduino.Size(e.minHeap)
    ensures WellFormed(e')
    ensures (element as real) < e.median ==>
              && e'.minHeap == e.minHeap && e'.median == Root(e'.maxHeap)
              && (added <==> Arduino.Size(e.maxHeap) < Arduino.Capacity(e.maxHeap))
    ensures (element as real) >= e.median ==>
              && e'.maxHeap == e.maxHeap && e'.median == Root(e'.minHeap)
              && (added <==> Arduino.Size(e.minHeap) < Arduino.Capacity(e.minHeap))
    ensures !added ==> e'.maxHeap == e.maxHeap && e'.minHeap == e.minHeap
    ensures added ==> GainedOne(e, e', element)
    ensures added && (element as real) < e.median ==> Arduino.Size(e'.maxHeap) == Arduino.Size(e.maxHeap) + 1
    ensures added && (element as real) >= e.median ==> Arduino.Size(e'.minHeap) == Arduino.Size(e.minHeap) + 1
    ensures Inv(e) && added ==> Inv(e') && GainedOne(e, e', element)
    ensures Arduino.Capacity(e'.maxHeap) == Arduino.Capacity(e.maxHeap) && Arduino.Capacity(e'.minHeap) == Arduino.Capacity(e.minHeap)
  {
    var maxHeap, minHeap := e.maxHeap, e.minHeap;
    if (element as real) < e.median {
      maxHeap, added := Arduino.Add(maxHeap, element);
      e' := Engine(maxHeap, minHeap, Root(maxHeap));
      if Inv(e) && added {
        JoinLowerKeepsInv(e, e', element);
      }
    } else {
      minHeap, added := Arduino.Add(minHeap, element);
      e' := Engine(maxHeap, minHeap, Root(minHeap));
      if Inv(e) && added {
        JoinUpperKeepsInv(e, e', element);
      }
    }
  }

  /** Heaps of equal capacity whose sizes differ by at most one, not both full: the next
      getMedian(element) can add its sample, whatever order the heaps are in. */
  predicate CanTake(e: Engine)
    requires WellFormed(e)
  {
    SizesClose(e) && !Full(e)
  }

  /** The root of a non-empty heap of 32-bit samples lies above FLOAT_MIN. */
  lemma RootAboveFloatMin(h: Arduino.Heap)
    requires Arduino.Valid(h) && Arduino.Size(h) > 0 && AllSamples(Arduino.Live(h))
    ensures FloatMin as real < Root(h)
  {
    assert h.heapArray[..Arduino.Size(h)][0] == h.heapArray[0];
    assert IsInt32(h.heapArray[0]);
  }

  /** One 32-bit sample joining two collections of 32-bit samples keeps them 32-bit. */
  lemma GainedSamples(e: Engine, e': Engine, element: Int32)
    requires WellFormed(e) && WellFormed(e') && GainedOne(e, e', element)
    requires AllSamples(Arduino.Live(e.maxHeap)) && AllSamples(Arduino.Live(e.minHeap))
    ensures AllSamples(Arduino.Live(e'.maxHeap)) && AllSamples(Arduino.Live(e'.minHeap))
  {
    PooledSamples(Arduino.Live(e.maxHeap) + multiset{element}, Arduino.Live(e.minHeap),
                  Arduino.Live(e'.maxHeap), Arduino.Live(e'.minHeap), element, element);
  }

  /** getMedian(element): dispatches on the sign of size(left) - size(right) and returns
      the new median, or FLOAT_MIN when an add failed. Whenever the engine can take the
      sample, even with heaps out of order, it is added, the sizes end within one (equal
      when they differed) and the result is the stored median, above FLOAT_MIN when
      every sample is a 32-bit int. From an engine keeping the invariant and not full,
      the result is the classical median of all samples so far and the invariant still
      holds; a full engine keeps its heaps and returns FLOAT_MIN. */
  method GetMedian(e: Engine, element: Int32) returns (e': Engine, r: real)
    requires WellFormed(e)
    ensures WellFormed(e')
    ensures Inv(e) && !Full(e) ==>
              && Inv(e')
              && multiset(Contents(e')) == multiset(Contents(e)) + multiset{element}
              && r == e'.median == Median(Contents(e'))
    ensures Inv(e) && Full(e) ==>
              && e'.maxHeap == e.maxHeap && e'.minHeap == e.minHeap
              && r == FloatMin as real
    ensures Inv(e) ==> (r == FloatMin as real <==> Full(e))
    ensures SizesClose(e) && Full(e) ==>
              && e'.maxHeap == e.maxHeap && e'.minHeap == e.minHeap
              && r == FloatMin as real
    ensures SizesClose(e) && AllSamples(Arduino.Live(e.maxHeap)) && AllSamples(Arduino.Live(e.minHeap)) ==>
              (r == FloatMin as real <==> Full(e))
    ensures Inv(e) && !Full(e) && Arduino.Size(e.maxHeap) != Arduino.Size(e.minHeap) ==>
              Arduino.Size(e'.maxHeap) == Arduino.Size(e'.minHeap)
    ensures CanTake(e) ==>
              && r == e'.median && GainedOne(e, e', element)
              && -1 <= Arduino.Size(e'.maxHeap) - Arduino.Size(e'.minHeap) <= 1
              && (Arduino.Size(e.maxHeap) != Arduino.Size(e.minHeap) ==>
                    Arduino.Size(e'.maxHeap) == Arduino.Size(e'.minHeap))
    ensures CanTake(e) && AllSamples(Arduino.Live(e.maxHeap)) && AllSamples(Arduino.Live(e.minHeap)) ==>
              FloatMin as real < r
    ensures Arduino.Capacity(e'.maxHeap) == Arduino.Capacity(e.maxHeap) && Arduino.Capacity(e'.minHeap) == Arduino.Capacity(e.minHeap)
  {
    var sign := Signum(Arduino.Size(e.maxHeap), Arduino.Size(e.minHeap));
    var added;
    if sign == 1 {
      e', added := AddWhenLeftLarger(e, element);
    } else if sign == 0 {
      e', added := AddWhenEven(e, element);
    } else {
      e', added := AddWhenRightLarger(e, element);
    }
    r := if added then e'.median else FloatMin as real;
    if SizesClose(e) && Full(e) {
      assert sign == 0 && !added;
    }
    if Inv(e) && added {
      MedianIsClassical(e');
    }
    if CanTake(e) && AllSamples(Arduino.Live(e.maxHeap)) && AllSamples(Arduino.Live(e.minHeap)) {
      GainedSamples(e, e', element);
      if Arduino.Size(e'.maxHeap) > 0 {
        RootAboveFloatMin(e'.maxHeap);
      }
      if Arduino.Size(e'.minHeap) > 0 {
        RootAboveFloatMin(e'.minHeap);
      }
    }
  }

  /** Under the invariant the stored median splits the samples: every left sample lies
      at or below it and every right sample at or above it. */
  lemma MedianSplitsHalves(e: Engine)
    requires Inv(e) && |Contents(e)| > 0
    ensures forall x :: x in Arduino.Live(e.maxHeap) ==> x as real <= e.median
    ensures forall y :: y in Arduino.Live(e.minHeap) ==> e.median <= y as real
  {
    var lower, upper := Arduino.Live(e.maxHeap), Arduino.Live(e.minHeap);
    if |lower| > 0 {
      var hi := Arduino.Peek(e.maxHeap).value;
      if |upper| > 0 {
        var lo := Arduino.Peek(e.minHeap).value;
        assert hi <= lo;
        assert hi as real <= e.median <= lo as real;
      }
    }
  }

  /** The left root `top` leaving the left half for the right half keeps them separated. */
  lemma MoveTop(lower: multiset<int>, upper: multiset<int>, top: int)
    requires Separated(lower, upper) && top in lower && AllAtMost(lower, top)
    ensures Separated(lower - multiset{top}, upper + multiset{top})
  {
  }

  /** The right root `bottom` leaving the right half for the left half keeps them
      separated. */
  lemma MoveBottom(lower: multiset<int>, upper: multiset<int>, bottom: int)
    requires Separated(lower, upper) && bottom in upper && AllAtLeast(upper, bottom)
    ensures Separated(lower + multiset{bottom}, upper - multiset{bottom})
  {
  }

  /** `to.add(from.poll())` on a non-empty `from`: the root of `from` moves to `to`, or
      is dropped when `to` is full. Moving a root between the two halves keeps them
      ordered and separated, in either direction. */
  method MoveRoot(from: Arduino.Heap, to: Arduino.Heap) returns (from': Arduino.Heap, to': Arduino.Heap, done: bool)
    requires Arduino.Valid(from) && Arduino.Valid(to) && Arduino.Size(from) > 0
    ensures Arduino.Valid(from') && Arduino.Valid(to')
    ensures from'.comparator == from.comparator && to'.comparator == to.comparator
    ensures Arduino.Capacity(from') == Arduino.Capacity(from) && Arduino.Capacity(to') == Arduino.Capacity(to)
    ensures done <==> Arduino.Size(to) < Arduino.Capacity(to)
    ensures Arduino.Size(from') == Arduino.Size(from) - 1
    ensures Arduino.Live(from') == Arduino.Live(from) - multiset{from.heapArray[0]}
    ensures done ==> Arduino.Size(to') == Arduino.Size(to) + 1
    ensures done ==> Arduino.Live(to') == Arduino.Live(to) + multiset{from.heapArray[0]}
    ensures !done ==> to' == to
    ensures done && Halves(from, to) ==> Halves(from', to')
    ensures done && Halves(to, from) ==> Halves(to', from')
  {
    var root;
    from', root := Arduino.Poll(from);
    to', done := Arduino.Add(to, root.value);
    if done && Halves(from, to) {
      MoveTop(Arduino.Live(from), Arduino.Live(to), root.value);
    }
    if done && Halves(to, from) {
      MoveBottom(Arduino.Live(to), Arduino.Live(from), root.value);
    }
  }

  /** `element` is the root of a non-empty heap: deleteLazy polls it. */
  predicate DeletesRoot(h: Arduino.Heap, element: int)
    requires Arduino.Valid(h)
  {
    Arduino.Size(h) > 0 && element == h.heapArray[0]
  }

  /** `element` is live but not the root, and the last-inserted slot is the last live
      one: deleteLazy leaves FLOAT_MIN behind in a live slot. */
  predicate LeavesTombstone(h: Arduino.Heap, element: int)
    requires Arduino.Valid(h)
  {
    && Arduino.Size(h) > 0 && element != h.heapArray[0] && element in Arduino.Live(h)
    && h.lastInsertedIndex == h.currentIndex
  }

  /** `element` is live but not the root, and the last-inserted slot lies past the live
      prefix because polls have shrunk the heap since the last add: deleteLazy copies
      that dead slot's value over the match, so a polled sample comes back. */
  predicate Resurrects(h: Arduino.Heap, element: int)
    requires Arduino.Valid(h)
  {
    && Arduino.Size(h) > 0 && element != h.heapArray[0] && element in Arduino.Live(h)
    && h.lastInsertedIndex != NotDefined && h.lastInsertedIndex > h.currentIndex
  }

  /** `element` is not the root, and it is not live or no last-inserted index is known:
      deleteLazy changes nothing. */
  predicate Misses(h: Arduino.Heap, element: int)
    requires Arduino.Valid(h)
  {
    !DeletesRoot(h, element) && (element !in Arduino.Live(h) || h.lastInsertedIndex == NotDefined)
  }

  /** Every lazy deletion falls in exactly one of the four cases above. */
  lemma DeleteCases(h: Arduino.Heap, element: int)
    requires Arduino.Valid(h)
    ensures (if DeletesRoot(h, element) then 1 else 0) + (if LeavesTombstone(h, element) then 1 else 0)
            + (if Resurrects(h, element) then 1 else 0) + (if Misses(h, element) then 1 else 0) == 1
  {
  }

  /** The samples of two heaps taken together. */
  function Pooled(a: Arduino.Heap, b: Arduino.Heap): multiset<int>
    requires Arduino.Valid(a) && Arduino.Valid(b)
  {
    Arduino.Live(a) + Arduino.Live(b)
  }

  /** Taking `oldElement` out of one half and putting `newElement` into the other keeps
      the halves ordered and separated when the new element lies beyond the half it
      leaves, in either direction. */
  lemma SwapAcrossHalves(heapDelete: Arduino.Heap, heapAdd: Arduino.Heap, del: Arduino.Heap, add: Arduino.Heap,
                         oldElement: int, newElement: int)
    requires Arduino.Valid(heapDelete) && Arduino.Valid(heapAdd) && Arduino.Valid(del) && Arduino.Valid(add)
    requires del.comparator == heapDelete.comparator && add.comparator == heapAdd.comparator
    requires Arduino.HeapOrdered(heapDelete) ==> Arduino.HeapOrdered(del)
    requires Arduino.HeapOrdered(heapAdd) ==> Arduino.HeapOrdered(add)
    requires Arduino.Live(del) == Arduino.Live(heapDelete) - multiset{oldElement}
    requires Arduino.Live(add) == Arduino.Live(heapAdd) + multiset{newElement}
    ensures Halves(heapDelete, heapAdd) && AllAtMost(Arduino.Live(heapDelete), newElement) ==> Halves(del, add)
    ensures Halves(heapAdd, heapDelete) && AllAtLeast(Arduino.Live(heapDelete), newElement) ==> Halves(add, del)
  {
    var rest := Arduino.Live(del);
    if Halves(heapDelete, heapAdd) && AllAtMost(Arduino.Live(heapDelete), newElement) {
      assert Separated(rest, Arduino.Live(heapAdd));
      JoinUpper(rest, Arduino.Live(heapAdd), newElement);
    }
    if Halves(heapAdd, heapDelete) && AllAtLeast(Arduino.Live(heapDelete), newElement) {
      assert Separated(Arduino.Live(heapAdd), rest);
      JoinLower(Arduino.Live(heapAdd), rest, newElement);
    }
  }

  lemma PooledSymmetric(a: Arduino.Heap, b: Arduino.Heap)
    requires Arduino.Valid(a) && Arduino.Valid(b)
    ensures Pooled(a, b) == Pooled(b, a)
  {
  }

  /** deleteLazy(old) with its result ignored, as deleteAddBalance calls it: the root
      is polled; a live non-root match is overwritten by the last-inserted slot's value,
      which is a FLOAT_MIN tombstone when that slot is the last live one and a polled
      sample when it lies past the live prefix; otherwise nothing changes. Only polling
      the root shrinks the heap. */
  method DeleteOld(h: Arduino.Heap, oldElement: int) returns (h': Arduino.Heap)
    requires Arduino.Valid(h)
    ensures Arduino.Valid(h') && h'.comparator == h.comparator && Arduino.Capacity(h') == Arduino.Capacity(h)
    ensures Arduino.Size(h') == Arduino.Size(h) - if DeletesRoot(h, oldElement) then 1 else 0
    ensures DeletesRoot(h, oldElement) ==>
              Arduino.Live(h') == Arduino.Live(h) - multiset{oldElement}
              && (Arduino.HeapOrdered(h) ==> Arduino.HeapOrdered(h'))
    ensures LeavesTombstone(h, oldElement) ==>
              Arduino.Live(h') == Arduino.Live(h) - multiset{oldElement} + multiset{FloatMin}
    ensures Resurrects(h, oldElement) ==>
              Arduino.Live(h') == Arduino.Live(h) - multiset{oldElement} + multiset{h.heapArray[h.lastInsertedIndex]}
    ensures Misses(h, oldElement) ==> h' == h
  {
    var deleted;
    h', deleted := Arduino.DeleteLazy(h, oldElement);
  }

  /** The first two steps of deleteAddBalance: `oldElement` lazily deleted from
      `heapDelete` and `newElement` added to `heapAdd`, each result unchecked. */
  method DeleteThenAdd(heapDelete: Arduino.Heap, heapAdd: Arduino.Heap, oldElement: int, newElement: int)
    returns (del: Arduino.Heap, add: Arduino.Heap)
    requires Arduino.Valid(heapDelete) && Arduino.Valid(heapAdd)
    ensures Arduino.Valid(del) && Arduino.Valid(add)
    ensures del.comparator == heapDelete.comparator && add.comparator == heapAdd.comparator
    ensures Arduino.Capacity(del) == Arduino.Capacity(heapDelete) && Arduino.Capacity(add) == Arduino.Capacity(heapAdd)
    ensures Arduino.Size(del) == Arduino.Size(heapDelete) - if DeletesRoot(heapDelete, oldElement) then 1 else 0
    ensures Arduino.Size(add) == Arduino.Size(heapAdd) + if Arduino.Size(heapAdd) < Arduino.Capacity(heapAdd) then 1 else 0
    ensures Misses(heapDelete, oldElement) ==> del == heapDelete
    ensures DeletesRoot(heapDelete, oldElement) && Arduino.Size(heapAdd) < Arduino.Capacity(heapAdd) ==>
              && Pooled(del, add) == Pooled(heapDelete, heapAdd) - multiset{oldElement} + multiset{newElement}
              && (Halves(heapDelete, heapAdd) && AllAtMost(Arduino.Live(heapDelete), newElement) ==> Halves(del, add))
              && (Halves(heapAdd, heapDelete) && AllAtLeast(Arduino.Live(heapDelete), newElement) ==> Halves(add, del))
    ensures LeavesTombstone(heapDelete, oldElement) && Arduino.Size(heapAdd) < Arduino.Capacity(heapAdd) ==>
              Pooled(del, add) == Pooled(heapDelete, heapAdd) - multiset{oldElement} + multiset{FloatMin} + multiset{newElement}
    ensures Resurrects(heapDelete, oldElement) && Arduino.Size(heapAdd) < Arduino.Capacity(heapAdd) ==>
              Pooled(del, add) == Pooled(heapDelete, heapAdd) - multiset{oldElement}
                                  + multiset{heapDelete.heapArray[heapDelete.lastInsertedIndex]} + multiset{newElement}
    ensures Misses(heapDelete, oldElement) && Arduino.Size(heapAdd) < Arduino.Capacity(heapAdd) ==>
              Pooled(del, add) == Pooled(heapDelete, heapAdd) + multiset{newElement}
  {
    var added;
    del := DeleteOld(heapDelete, oldElement);
    add, added := Arduino.Add(heapAdd, newElement);
    if added {
      if DeletesRoot(heapDelete, oldElement) {
        assert oldElement in Arduino.Live(heapDelete) by {
          assert heapDelete.heapArray[..Arduino.Size(heapDelete)][0] == oldElement;
        }
        PooledAfterSwap(heapDelete, heapAdd, del, add, oldElement, newElement, multiset{});
        SwapAcrossHalves(heapDelete, heapAdd, del, add, oldElement, newElement);
      } else if LeavesTombstone(heapDelete, oldElement) {
        PooledAfterSwap(heapDelete, heapAdd, del, add, oldElement, newElement, multiset{FloatMin});
      } else if Resurrects(heapDelete, oldElement) {
        var back := heapDelete.heapArray[heapDelete.lastInsertedIndex];
        PooledAfterSwap(heapDelete, heapAdd, del, add, oldElement, newElement, multiset{back});
      }
    }
  }

  /** The pooled samples after a live `oldElement` left one heap, leaving `rest` behind
      in its place, and `newElement` joined the other. */
  lemma PooledAfterSwap(heapDelete: Arduino.Heap, heapAdd: Arduino.Heap, del: Arduino.Heap, add: Arduino.Heap,
                        oldElement: int, newElement: int, rest: multiset<int>)
    requires Arduino.Valid(heapDelete) && Arduino.Valid(heapAdd) && Arduino.Valid(del) && Arduino.Valid(add)
    requires oldElement in Arduino.Live(heapDelete)
    requires Arduino.Live(del) == Arduino.Live(heapDelete) - multiset{oldElement} + rest
    requires Arduino.Live(add) == Arduino.Live(heapAdd) + multiset{newElement}
    ensures Pooled(del, add) == Pooled(heapDelete, heapAdd) - multiset{oldElement} + rest + multiset{newElement}
  {
  }

  /** deleteAddBalance(heapDelete, heapAdd, old, new): lazily deletes `old` from
      `heapDelete`, adds `new` to `heapAdd`, then moves one root from the larger heap to
      the smaller when their sizes differ, returning that move's result (true when no
      move is needed). Heaps of equal capacity always succeed, and sizes that differed
      by at most one still do. When `new` fits, the pooled samples lose `old` and gain
      `new` if `old` was the root, and the halves stay ordered and separated; a
      non-root `old` leaves a tombstone or a resurrected sample in its place, or nothing
      is deleted at all, and only the deleting heap's size is restored. */
  method DeleteAddBalance(heapDelete: Arduino.Heap, heapAdd: Arduino.Heap, oldElement: int, newElement: int)
    returns (heapDelete': Arduino.Heap, heapAdd': Arduino.Heap, done: bool)
    requires Arduino.Valid(heapDelete) && Arduino.Valid(heapAdd)
    ensures Arduino.Valid(heapDelete') && Arduino.Valid(heapAdd')
    ensures heapDelete'.comparator == heapDelete.comparator && heapAdd'.comparator == heapAdd.comparator
    ensures Arduino.Capacity(heapDelete') == Arduino.Capacity(heapDelete)
    ensures Arduino.Capacity(heapAdd') == Arduino.Capacity(heapAdd)
    ensures Arduino.Capacity(heapDelete) == Arduino.Capacity(heapAdd) ==> done
    ensures done && -1 <= Arduino.Size(heapDelete) - Arduino.Size(heapAdd) <= 1 ==>
              -1 <= Arduino.Size(heapDelete') - Arduino.Size(heapAdd') <= 1
    ensures done && Arduino.Size(heapAdd) < Arduino.Capacity(heapAdd) &&
            -1 <= Arduino.Size(heapDelete) - Arduino.Size(heapAdd) <= 1 ==>
              var d, a := Arduino.Size(heapDelete), Arduino.Size(heapAdd);
              && (DeletesRoot(heapDelete, oldElement) ==>
                    Arduino.Size(heapDelete') == d && Arduino.Size(heapAdd') == a)
              && (!DeletesRoot(heapDelete, oldElement) && d - a == 1 ==>
                    Arduino.Size(heapDelete') == d && Arduino.Size(heapAdd') == a + 1)
              && (!DeletesRoot(heapDelete, oldElement) && d - a < 1 ==>
                    Arduino.Size(heapDelete') == d + 1 && Arduino.Size(heapAdd') == a)
    ensures done && DeletesRoot(heapDelete, oldElement) && Arduino.Size(heapAdd) < Arduino.Capacity(heapAdd) ==>
              Pooled(heapDelete', heapAdd') == Pooled(heapDelete, heapAdd) - multiset{oldElement} + multiset{newElement}
    ensures done && LeavesTombstone(heapDelete, oldElement) && Arduino.Size(heapAdd) < Arduino.Capacity(heapAdd) ==>
              Pooled(heapDelete', heapAdd') ==
                Pooled(heapDelete, heapAdd) - multiset{oldElement} + multiset{FloatMin} + multiset{newElement}
    ensures done && Resurrects(heapDelete, oldElement) && Arduino.Size(heapAdd) < Arduino.Capacity(heapAdd) ==>
              Pooled(heapDelete', heapAdd') ==
                Pooled(heapDelete, heapAdd) - multiset{oldElement}
                + multiset{heapDelete.heapArray[heapDelete.lastInsertedIndex]} + multiset{newElement}
    ensures done && Misses(heapDelete, oldElement) && Arduino.Size(heapAdd) < Arduino.Capacity(heapAdd) ==>
              Pooled(heapDelete', heapAdd') == Pooled(heapDelete, heapAdd) + multiset{newElement}
    ensures done && DeletesRoot(heapDelete, oldElement) && Arduino.Size(heapAdd) < Arduino.Capacity(heapAdd) &&
            Halves(heapDelete, heapAdd) && AllAtMost(Arduino.Live(heapDelete), newElement) ==>
              Halves(heapDelete', heapAdd')
    ensures done && DeletesRoot(heapDelete, oldElement) && Arduino.Size(heapAdd) < Arduino.Capacity(heapAdd) &&
            Halves(heapAdd, heapDelete) && AllAtLeast(Arduino.Live(heapDelete), newElement) ==>
              Halves(heapAdd', heapDelete')
  {
    var del, add := DeleteThenAdd(heapDelete, heapAdd, oldElement, newElement);
    heapDelete', heapAdd', done := Rebalance(del, add);
  }

  /** The balancing step of deleteAddBalance: when the sizes differ, the root of the
      larger heap is polled and added to the smaller, and the result says whether that
      add succeeded (a failed add drops the polled root); equal sizes change nothing. It
      succeeds whenever the heaps have equal capacity, then leaves sizes that differ by
      at most one if they differed by at most three, pools the same samples, and keeps
      two halves ordered and separated. */
  method Rebalance(del: Arduino.Heap, add: Arduino.Heap) returns (del': Arduino.Heap, add': Arduino.Heap, done: bool)
    requires Arduino.Valid(del) && Arduino.Valid(add)
    ensures Arduino.Valid(del') && Arduino.Valid(add')
    ensures del'.comparator == del.comparator && add'.comparator == add.comparator
    ensures Arduino.Capacity(del') == Arduino.Capacity(del) && Arduino.Capacity(add') == Arduino.Capacity(add)
    ensures Arduino.Capacity(del) == Arduino.Capacity(add) ==> done
    ensures Arduino.Size(del) == Arduino.Size(add) ==> done && del' == del && add' == add
    ensures Arduino.Size(del) > Arduino.Size(add) ==>
              && (done <==> Arduino.Size(add) < Arduino.Capacity(add))
              && Arduino.Size(del') == Arduino.Size(del) - 1
              && Arduino.Live(del') == Arduino.Live(del) - multiset{del.heapArray[0]}
              && (done ==> Arduino.Size(add') == Arduino.Size(add) + 1
                           && Arduino.Live(add') == Arduino.Live(add) + multiset{del.heapArray[0]})
              && (!done ==> add' == add)
    ensures Arduino.Size(del) < Arduino.Size(add) ==>
              && (done <==> Arduino.Size(del) < Arduino.Capacity(del))
              && Arduino.Size(add') == Arduino.Size(add) - 1
              && Arduino.Live(add') == Arduino.Live(add) - multiset{add.heapArray[0]}
              && (done ==> Arduino.Size(del') == Arduino.Size(del) + 1
                           && Arduino.Live(del') == Arduino.Live(del) + multiset{add.heapArray[0]})
              && (!done ==> del' == del)
    ensures done && -3 <= Arduino.Size(del) - Arduino.Size(add) <= 3 ==>
              -1 <= Arduino.Size(del') - Arduino.Size(add') <= 1
    ensures done ==> Pooled(del', add') == Pooled(del, add)
    ensures done && Halves(del, add) ==> Halves(del', add')
    ensures done && Halves(add, del) ==> Halves(add', del')
  {
    var sign := Signum(Arduino.Size(del), Arduino.Size(add));
    done := true;
    if sign == 1 {
      del', add', done := MoveRoot(del, add);
    } else if sign == -1 {
      add', del', done := MoveRoot(add, del);
    } else {
      del', add' := del, add;
    }
  }

  /** Samples taken from two 32-bit collections, with one 32-bit sample swapped in,
      are 32-bit. */
  lemma PooledSamples(a: multiset<int>, b: multiset<int>, a': multiset<int>, b': multiset<int>,
                      oldElement: int, newElement: Int32)
    requires AllSamples(a) && AllSamples(b)
    requires a' + b' == a + b - multiset{oldElement} + multiset{newElement}
    ensures AllSamples(a') && AllSamples(b')
  {
    forall x | x in a'
      ensures IsInt32(x)
    {
      assert x in a' + b';
      assert x in a + b || x == newElement;
    }
    forall x | x in b'
      ensures IsInt32(x)
    {
      assert x in a' + b';
      assert x in a + b || x == newElement;
    }
  }

  /** One left sample replaced by a sample below the stored median: the samples stay
      split, and the engine stays balanced when the left heap is still ordered. */
  lemma ReplaceLowerKeepsBalance(e: Engine, e': Engine, oldElement: Int32, newElement: Int32)
    requires Inv(e) && WellFormed(e') && |Contents(e)| > 0 && (newElement as real) < e.median
    requires e'.minHeap == e.minHeap
    requires Arduino.Capacity(e'.maxHeap) == Arduino.Capacity(e.maxHeap) && Arduino.Size(e'.maxHeap) == Arduino.Size(e.maxHeap)
    requires oldElement in Arduino.Live(e.maxHeap)
    requires Arduino.Live(e'.maxHeap) == Arduino.Live(e.maxHeap) - multiset{oldElement} + multiset{newElement}
    ensures Split(e') && (Arduino.HeapOrdered(e'.maxHeap) ==> Balanced(e'))
    ensures multiset(Contents(e')) == multiset(Contents(e)) - multiset{oldElement} + multiset{newElement}
  {
    MedianSplitsHalves(e);
    var rest := Arduino.Live(e.maxHeap) - multiset{oldElement};
    assert Separated(rest, Arduino.Live(e.minHeap));
    JoinLower(rest, Arduino.Live(e.minHeap), newElement);
  }

  /** One right sample replaced by a sample at or above the stored median: the samples
      stay split, and the engine stays balanced when the right heap is still ordered. */
  lemma ReplaceUpperKeepsBalance(e: Engine, e': Engine, oldElement: Int32, newElement: Int32)
    requires Inv(e) && WellFormed(e') && |Contents(e)| > 0 && (newElement as real) >= e.median
    requires e'.maxHeap == e.maxHeap
    requires Arduino.Capacity(e'.minHeap) == Arduino.Capacity(e.minHeap) && Arduino.Size(e'.minHeap) == Arduino.Size(e.minHeap)
    requires oldElement in Arduino.Live(e.minHeap)
    requires Arduino.Live(e'.minHeap) == Arduino.Live(e.minHeap) - multiset{oldElement} + multiset{newElement}
    ensures Split(e') && (Arduino.HeapOrdered(e'.minHeap) ==> Balanced(e'))
    ensures multiset(Contents(e')) == multiset(Contents(e)) - multiset{oldElement} + multiset{newElement}
  {
    MedianSplitsHalves(e);
    var rest := Arduino.Live(e.minHeap) - multiset{oldElement};
    assert Separated(Arduino.Live(e.maxHeap), rest);
    JoinUpper(Arduino.Live(e.maxHeap), rest, newElement);
  }

  /** After a cross-half update whose deletion polled the root, with every balancing
      step done: the engine is balanced and holds the new sample instead of the old. */
  lemma CrossUpdateKeepsBalance(e: Engine, e': Engine, oldElement: Int32, newElement: Int32)
    requires Inv(e) && WellFormed(e') && Halves(e'.maxHeap, e'.minHeap)
    requires Arduino.Capacity(e'.maxHeap) == Arduino.Capacity(e.maxHeap)
    requires Arduino.Capacity(e'.minHeap) == Arduino.Capacity(e.minHeap)
    requires -1 <= Arduino.Size(e'.maxHeap) - Arduino.Size(e'.minHeap) <= 1
    requires Pooled(e'.maxHeap, e'.minHeap) == Pooled(e.maxHeap, e.minHeap) - multiset{oldElement} + multiset{newElement}
    ensures Balanced(e')
    ensures multiset(Contents(e')) == multiset(Contents(e)) - multiset{oldElement} + multiset{newElement}
  {
    PooledSamples(Arduino.Live(e.maxHeap), Arduino.Live(e.minHeap), Arduino.Live(e'.maxHeap), Arduino.Live(e'.minHeap),
                  oldElement, newElement);
  }

  /** The cross-side path of updateElement for an `old` looked for in the left heap:
      deleteAddBalance(left, right, old, new), its result ignored and the stored median
      untouched. From an engine keeping the invariant the sizes stay within one; when
      `old` is the left root, `new` lies at or above the stored median and the right
      heap has room, the engine stays balanced and holds `new` instead of `old`. */
  method CrossToUpper(e: Engine, oldElement: Int32, newElement: Int32) returns (e': Engine)
    requires WellFormed(e)
    ensures WellFormed(e') && e'.median == e.median
    ensures Arduino.Capacity(e'.maxHeap) == Arduino.Capacity(e.maxHeap)
    ensures Arduino.Capacity(e'.minHeap) == Arduino.Capacity(e.minHeap)
    ensures SizesClose(e) ==> SizesClose(e')
    ensures Inv(e) && (newElement as real) >= e.median && DeletesRoot(e.maxHeap, oldElement)
            && Arduino.Size(e.minHeap) < Arduino.Capacity(e.minHeap) ==>
              && Balanced(e')
              && multiset(Contents(e')) == multiset(Contents(e)) - multiset{oldElement} + multiset{newElement}
  {
    var maxHeap, minHeap, done := DeleteAddBalance(e.maxHeap, e.minHeap, oldElement, newElement);
    e' := Engine(maxHeap, minHeap, e.median);
    if Inv(e) && (newElement as real) >= e.median && DeletesRoot(e.maxHeap, oldElement)
       && Arduino.Size(e.minHeap) < Arduino.Capacity(e.minHeap) {
      MedianSplitsHalves(e);
      CrossUpdateKeepsBalance(e, e', oldElement, newElement);
    }
  }

  /** The cross-side path of updateElement for an `old` looked for in the right heap:
      deleteAddBalance(right, left, old, new), mirroring CrossToUpper. */
  method CrossToLower(e: Engine, oldElement: Int32, newElement: Int32) returns (e': Engine)
    requires WellFormed(e)
    ensures WellFormed(e') && e'.median == e.median
    ensures Arduino.Capacity(e'.maxHeap) == Arduino.Capacity(e.maxHeap)
    ensures Arduino.Capacity(e'.minHeap) == Arduino.Capacity(e.minHeap)
    ensures SizesClose(e) ==> SizesClose(e')
    ensures Inv(e) && (newElement as real) < e.median && DeletesRoot(e.minHeap, oldElement)
            && Arduino.Size(e.maxHeap) < Arduino.Capacity(e.maxHeap) ==>
              && Balanced(e')
              && multiset(Contents(e')) == multiset(Contents(e)) - multiset{oldElement} + multiset{newElement}
  {
    var minHeap, maxHeap, done := DeleteAddBalance(e.minHeap, e.maxHeap, oldElement, newElement);
    e' := Engine(maxHeap, minHeap, e.median);
    if Inv(e) && (newElement as real) < e.median && DeletesRoot(e.minHeap, oldElement)
       && Arduino.Size(e.maxHeap) < Arduino.Capacity(e.maxHeap) {
      MedianSplitsHalves(e);
      PooledSymmetric(e.minHeap, e.maxHeap);
      PooledSymmetric(minHeap, maxHeap);
      CrossUpdateKeepsBalance(e, e', oldElement, newElement);
    }
  }

  /** The last live slot of `h'` holds what overwriting the first `old` of `h` by `new`
      put there: findAndUpdateElement's sift-down from the root never moves that slot. */
  predicate LastSlotKept(h: Arduino.Heap, h': Arduino.Heap, oldElement: int, newElement: int)
    requires Arduino.Valid(h) && Arduino.Valid(h')
  {
    && oldElement in Arduino.Live(h)
    && 0 <= h.currentIndex < |h'.heapArray| == |h.heapArray|
    && h'.heapArray[h.currentIndex] == h.heapArray[Arduino.Find(h, oldElement) := newElement][h.currentIndex]
  }

  /** updateElement(old, new) for `old` below the stored median, looked for in the left
      heap. A `new` also below it overwrites old there through findAndUpdateElement,
      which keeps the samples split but may leave the left heap out of order; otherwise
      the sample crosses over and the result is true regardless. */
  method UpdateLower(e: Engine, oldElement: Int32, newElement: Int32) returns (e': Engine, updated: bool)
    requires WellFormed(e) && FloatMin as real < e.median && (oldElement as real) < e.median
    ensures WellFormed(e') && e'.median == e.median
    ensures Arduino.Capacity(e'.maxHeap) == Arduino.Capacity(e.maxHeap)
    ensures Arduino.Capacity(e'.minHeap) == Arduino.Capacity(e.minHeap)
    ensures (newElement as real) < e.median ==>
              && e'.minHeap == e.minHeap
              && (updated <==> oldElement in Arduino.Live(e.maxHeap))
              && (!updated ==> e' == e)
              && (updated ==> && Arduino.Size(e'.maxHeap) == Arduino.Size(e.maxHeap)
                              && Arduino.Live(e'.maxHeap) == Arduino.Live(e.maxHeap) - multiset{oldElement} + multiset{newElement}
                              && multiset(Contents(e')) == multiset(Contents(e)) - multiset{oldElement} + multiset{newElement}
                              && LastSlotKept(e.maxHeap, e'.maxHeap, oldElement, newElement))
    ensures (newElement as real) >= e.median ==> updated
    ensures SizesClose(e) ==> SizesClose(e')
    ensures Inv(e) ==> (oldElement in multiset(Contents(e)) <==> oldElement in Arduino.Live(e.maxHeap))
    ensures Inv(e) && (newElement as real) < e.median && updated ==> Split(e')
    ensures Inv(e) && (newElement as real) >= e.median && DeletesRoot(e.maxHeap, oldElement)
            && Arduino.Size(e.minHeap) < Arduino.Capacity(e.minHeap) ==>
              && Balanced(e')
              && multiset(Contents(e')) == multiset(Contents(e)) - multiset{oldElement} + multiset{newElement}
  {
    if Inv(e) {
      MedianSplitsHalves(e);
    }
    if (newElement as real) < e.median {
      var maxHeap;
      maxHeap, updated := Arduino.FindAndUpdateElement(e.maxHeap, oldElement, newElement);
      e' := e.(maxHeap := maxHeap);
      if Inv(e) && updated {
        ReplaceLowerKeepsBalance(e, e', oldElement, newElement);
      }
    } else {
      e' := CrossToUpper(e, oldElement, newElement);
      updated := true;
    }
  }

  /** updateElement(old, new) for `old` at or above the stored median, looked for in the
      right heap, mirroring UpdateLower. */
  method UpdateUpper(e: Engine, oldElement: Int32, newElement: Int32) returns (e': Engine, updated: bool)
    requires WellFormed(e) && FloatMin as real < e.median && (oldElement as real) >= e.median
    ensures WellFormed(e') && e'.median == e.median
    ensures Arduino.Capacity(e'.maxHeap) == Arduino.Capacity(e.maxHeap)
    ensures Arduino.Capacity(e'.minHeap) == Arduino.Capacity(e.minHeap)
    ensures (newElement as real) >= e.median ==>
              && e'.maxHeap == e.maxHeap
              && (updated <==> oldElement in Arduino.Live(e.minHeap))
              && (!updated ==> e' == e)
              && (updated ==> && Arduino.Size(e'.minHeap) == Arduino.Size(e.minHeap)
                              && Arduino.Live(e'.minHeap) == Arduino.Live(e.minHeap) - multiset{oldElement} + multiset{newElement}
                              && multiset(Contents(e')) == multiset(Contents(e)) - multiset{oldElement} + multiset{newElement}
                              && LastSlotKept(e.minHeap, e'.minHeap, oldElement, newElement))
    ensures (newElement as real) < e.median ==> updated
    ensures SizesClose(e) ==> SizesClose(e')
    ensures Inv(e) && (oldElement as real) > e.median ==>
              (oldElement in multiset(Contents(e)) <==> oldElement in Arduino.Live(e.minHeap))
    ensures Inv(e) && (newElement as real) >= e.median && updated ==> Split(e')
    ensures Inv(e) && (newElement as real) < e.median && DeletesRoot(e.minHeap, oldElement)
            && Arduino.Size(e.maxHeap) < Arduino.Capacity(e.maxHeap) ==>
              && Balanced(e')
              && multiset(Contents(e')) == multiset(Contents(e)) - multiset{oldElement} + multiset{newElement}
  {
    if Inv(e) {
      MedianSplitsHalves(e);
    }
    if (newElement as real) >= e.median {
      var minHeap;
      minHeap, updated := Arduino.FindAndUpdateElement(e.minHeap, oldElement, newElement);
      e' := e.(minHeap := minHeap);
      if Inv(e) && updated {
        ReplaceUpperKeepsBalance(e, e', oldElement, newElement);
      }
    } else {
      e' := CrossToLower(e, oldElement, newElement);
      updated := true;
    }
  }

  /** UpdateLower with the order-keeping update in place of findAndUpdateElement: a
      same-side replacement keeps the engine balanced. */
  method UpdateLowerFixed(e: Engine, oldElement: Int32, newElement: Int32) returns (e': Engine, updated: bool)
    requires WellFormed(e) && FloatMin as real < e.median && (oldElement as real) < e.median
    ensures WellFormed(e') && e'.median == e.median
    ensures (newElement as real) < e.median ==>
              && e'.minHeap == e.minHeap
              && (updated <==> oldElement in Arduino.Live(e.maxHeap))
              && (!updated ==> e' == e)
    ensures (newElement as real) >= e.median ==> updated
    ensures SizesClose(e) ==> SizesClose(e')
    ensures Inv(e) && (newElement as real) < e.median && updated ==>
              && Balanced(e')
              && multiset(Contents(e')) == multiset(Contents(e)) - multiset{oldElement} + multiset{newElement}
    ensures Inv(e) && (newElement as real) >= e.median && DeletesRoot(e.maxHeap, oldElement)
            && Arduino.Size(e.minHeap) < Arduino.Capacity(e.minHeap) ==>
              && Balanced(e')
              && multiset(Contents(e')) == multiset(Contents(e)) - multiset{oldElement} + multiset{newElement}
  {
    if Inv(e) {
      MedianSplitsHalves(e);
    }
    if (newElement as real) < e.median {
      var maxHeap;
      maxHeap, updated := Arduino.FindAndUpdateElementFixed(e.maxHeap, oldElement, newElement);
      e' := e.(maxHeap := maxHeap);
      if Inv(e) && updated {
        ReplaceLowerKeepsBalance(e, e', oldElement, newElement);
      }
    } else {
      e' := CrossToUpper(e, oldElement, newElement);
      updated := true;
    }
  }

  /** UpdateUpper with the order-keeping update in place of findAndUpdateElement. */
  method UpdateUpperFixed(e: Engine, oldElement: Int32, newElement: Int32) returns (e': Engine, updated: bool)
    requires WellFormed(e) && FloatMin as real < e.median && (oldElement as real) >= e.median
    ensures WellFormed(e') && e'.median == e.median
    ensures (newElement as real) >= e.median ==>
              && e'.maxHeap == e.maxHeap
              && (updated <==> oldElement in Arduino.Live(e.minHeap))
              && (!updated ==> e' == e)
    ensures (newElement as real) < e.median ==> updated
    ensures SizesClose(e) ==> SizesClose(e')
    ensures Inv(e) && (newElement as real) >= e.median && updated ==>
              && Balanced(e')
              && multiset(Contents(e')) == multiset(Contents(e)) - multiset{oldElement} + multiset{newElement}
    ensures Inv(e) && (newElement as real) < e.median && DeletesRoot(e.minHeap, oldElement)
            && Arduino.Size(e.maxHeap) < Arduino.Capacity(e.maxHeap) ==>
              && Balanced(e')
              && multiset(Contents(e')) == multiset(Contents(e)) - multiset{oldElement} + multiset{newElement}
  {
    if Inv(e) {
      MedianSplitsHalves(e);
    }
    if (newElement as real) >= e.median {
      var minHeap;
      minHeap, updated := Arduino.FindAndUpdateElementFixed(e.minHeap, oldElement, newElement);
      e' := e.(minHeap := minHeap);
      if Inv(e) && updated {
        ReplaceUpperKeepsBalance(e, e', oldElement, newElement);
      }
    } else {
      e' := CrossToLower(e, oldElement, newElement);
      updated := true;
    }
  }

  /** The heap updateElement routes a sample to: the left heap below the stored median,
      the right heap otherwise. */
  function Home(e: Engine, x: int): Arduino.Heap {
    if (x as real) < e.median then e.maxHeap else e.minHeap
  }

  /** `old` and `new` fall on the same side of the stored median. */
  predicate SameSide(e: Engine, oldElement: int, newElement: int) {
    ((oldElement as real) < e.median) == ((newElement as real) < e.median)
  }

  /** updateElement(old, new), the replacement step of a sliding-window median. Before
      the first sample (median FLOAT_MIN) it returns false and changes nothing. When old
      and new fall on the same side of the stored median, old is overwritten by new in
      the heap of that side through findAndUpdateElement and the result says whether it
      was found there; otherwise deleteAddBalance moves the sample across and the result
      is true. The stored median is never touched. A same-side replacement swaps old for
      new in the samples, keeps the sizes and leaves the last live slot of that heap
      where it was; from an engine keeping the invariant the samples stay split, but the
      heap may be out of order. A cross-side update that deleted the root of old's heap
      keeps the engine balanced. */
  method UpdateElement(e: Engine, oldElement: Int32, newElement: Int32) returns (e': Engine, updated: bool)
    requires WellFormed(e)
    ensures WellFormed(e') && e'.median == e.median
    ensures Arduino.Capacity(e'.maxHeap) == Arduino.Capacity(e.maxHeap)
    ensures Arduino.Capacity(e'.minHeap) == Arduino.Capacity(e.minHeap)
    ensures e.median <= FloatMin as real ==> !updated && e' == e
    ensures !updated ==> e' == e
    ensures FloatMin as real < e.median && !SameSide(e, oldElement, newElement) ==> updated
    ensures FloatMin as real < e.median && SameSide(e, oldElement, newElement) ==>
              && (updated <==> oldElement in Arduino.Live(Home(e, oldElement)))
              && ((oldElement as real) < e.median ==> e'.minHeap == e.minHeap)
              && ((oldElement as real) >= e.median ==> e'.maxHeap == e.maxHeap)
              && (updated ==> && Arduino.Size(Home(e', oldElement)) == Arduino.Size(Home(e, oldElement))
                              && Arduino.Live(Home(e', oldElement)) ==
                                   Arduino.Live(Home(e, oldElement)) - multiset{oldElement} + multiset{newElement}
                              && multiset(Contents(e')) == multiset(Contents(e)) - multiset{oldElement} + multiset{newElement}
                              && LastSlotKept(Home(e, oldElement), Home(e', oldElement), oldElement, newElement))
    ensures SizesClose(e) ==> SizesClose(e')
    ensures Inv(e) && FloatMin as real < e.median && (oldElement as real) != e.median ==>
              (oldElement in multiset(Contents(e)) <==> oldElement in Arduino.Live(Home(e, oldElement)))
    ensures Inv(e) && FloatMin as real < e.median && SameSide(e, oldElement, newElement) && updated ==> Split(e')
    ensures Inv(e) && FloatMin as real < e.median && !SameSide(e, oldElement, newElement)
            && DeletesRoot(Home(e, oldElement), oldElement)
            && Arduino.Size(Home(e, newElement)) < Arduino.Capacity(Home(e, newElement)) ==>
              && Balanced(e')
              && multiset(Contents(e')) == multiset(Contents(e)) - multiset{oldElement} + multiset{newElement}
  {
    if e.median > FloatMin as real {
      if (oldElement as real) < e.median {
        e', updated := UpdateLower(e, oldElement, newElement);
      } else {
        e', updated := UpdateUpper(e, oldElement, newElement);
      }
    } else {
      e', updated := e, false;
    }
  }

  /** updateElement(old, new) with the order-keeping update on the same side: as
      UpdateElement, and every same-side replacement, like a cross-side one that deleted
      a root, leaves the engine balanced with new in place of old. */
  method UpdateElementFixed(e: Engine, oldElement: Int32, newElement: Int32) returns (e': Engine, updated: bool)
    requires WellFormed(e)
    ensures WellFormed(e') && e'.median == e.median
    ensures e.median <= FloatMin as real ==> !updated && e' == e
    ensures !updated ==> e' == e
    ensures FloatMin as real < e.median && !SameSide(e, oldElement, newElement) ==> updated
    ensures FloatMin as real < e.median && SameSide(e, oldElement, newElement) ==>
              && (updated <==> oldElement in Arduino.Live(Home(e, oldElement)))
              && ((oldElement as real) < e.median ==> e'.minHeap == e.minHeap)
              && ((oldElement as real) >= e.median ==> e'.maxHeap == e.maxHeap)
    ensures SizesClose(e) ==> SizesClose(e')
    ensures Inv(e) && FloatMin as real < e.median && SameSide(e, oldElement, newElement) && updated ==>
              && Balanced(e')
              && multiset(Contents(e')) == multiset(Contents(e)) - multiset{oldElement} + multiset{newElement}
    ensures Inv(e) && FloatMin as real < e.median && !SameSide(e, oldElement, newElement)
            && DeletesRoot(Home(e, oldElement), oldElement)
            && Arduino.Size(Home(e, newElement)) < Arduino.Capacity(Home(e, newElement)) ==>
              && Balanced(e')
              && multiset(Contents(e')) == multiset(Contents(e)) - multiset{oldElement} + multiset{newElement}
  {
    if e.median > FloatMin as real {
      if (oldElement as real) < e.median {
        e', updated := UpdateLowerFixed(e, oldElement, newElement);
      } else {
        e', updated := UpdateUpperFixed(e, oldElement, newElement);
      }
    } else {
      e', updated := e, false;
    }
  }

  /** getMedian() as written: the stored median becomes the mean of the two roots and
      is returned. From balanced heaps of equal size this is the classical median and
      restores the invariant; from balanced heaps of different sizes it is the
      classical median only when the two roots are equal. */
  function CurrentMedian(e: Engine): (r: (Engine, real))
    requires WellFormed(e)
    ensures r.0 == e.(median := r.1)
    ensures Balanced(e) && Arduino.Size(e.maxHeap) == Arduino.Size(e.minHeap) ==>
              && Inv(r.0)
              && (|Contents(e)| > 0 ==> r.1 == Median(Contents(e)))
    ensures Balanced(e) && Arduino.Size(e.maxHeap) != Arduino.Size(e.minHeap) ==>
              (r.1 == Median(Contents(e)) <==> Root(e.maxHeap) == Root(e.minHeap))
  {
    var median := Mean(Root(e.maxHeap), Root(e.minHeap));
    var e' := e.(median := median);
    var fixed := e.(median := RootMedian(e));
    if Balanced(e) then
      MedianIsClassical(fixed);
      assert Contents(e') == Contents(fixed) == Contents(e);
      (e', median)
    else
      (e', median)
  }

  /** getMedian() as evidently intended: the stored median becomes the one the roots
      give, the root of the larger heap when the sizes differ. From balanced heaps it
      restores the invariant and is the classical median of the samples. */
  function CurrentMedianFixed(e: Engine): (r: (Engine, real))
    requires WellFormed(e)
    ensures r.0 == e.(median := r.1)
    ensures Balanced(e) ==> Inv(r.0)
    ensures Balanced(e) && |Contents(e)| > 0 ==> r.1 == Median(Contents(e))
    ensures Balanced(e) && |Contents(e)| == 0 ==> r.1 == FloatMin as real
  {
    var e' := e.(median := RootMedian(e));
    if Balanced(e) then
      MedianIsClassical(e');
      assert Contents(e') == Contents(e);
      (e', e'.median)
    else
      (e', e'.median)
  }

  /** The ring-buffer use of the engine: each pair replaces its old sample by its new
      one through updateElement and, when that reports success, reads getMedian(),
      collecting the reads in order. Heaps of equal capacity with sizes within one keep
      that shape through any number of updates, stale median or not; the stored median
      is the last read, and before the first sample nothing changes. */
  method RingBufferUpdates(e: Engine, updates: seq<(Int32, Int32)>) returns (e': Engine, medians: seq<real>)
    requires WellFormed(e)
    ensures WellFormed(e')
    ensures Arduino.Capacity(e'.maxHeap) == Arduino.Capacity(e.maxHeap)
    ensures Arduino.Capacity(e'.minHeap) == Arduino.Capacity(e.minHeap)
    ensures SizesClose(e) ==> SizesClose(e')
    ensures |medians| <= |updates|
    ensures |medians| > 0 ==> e'.median == medians[|medians| - 1]
    ensures |medians| == 0 ==> e'.median == e.median
    ensures e.median <= FloatMin as real ==> e' == e && medians == []
  {
    e', medians := e, [];
    for i := 0 to |updates|
      invariant WellFormed(e')
      invariant Arduino.Capacity(e'.maxHeap) == Arduino.Capacity(e.maxHeap)
      invariant Arduino.Capacity(e'.minHeap) == Arduino.Capacity(e.minHeap)
      invariant SizesClose(e) ==> SizesClose(e')
      invariant |medians| <= i
      invariant |medians| > 0 ==> e'.median == medians[|medians| - 1]
      invariant |medians| == 0 ==> e'.median == e.median
      invariant e.median <= FloatMin as real ==> e' == e && medians == []
    {
      var read;
      e', read := RingBufferStep(e', updates[i].0, updates[i].1);
      if read.Some? {
        medians := medians + [read.value];
      }
    }
  }

  /** One step of the ring buffer: updateElement(old, new), then getMedian() when the
      update reports success. The shape of the heaps is kept, the stored median is the
      one read, and an unread step changes nothing. */
  method RingBufferStep(e: Engine, oldElement: Int32, newElement: Int32) returns (e': Engine, read: Option<real>)
    requires WellFormed(e)
    ensures WellFormed(e')
    ensures Arduino.Capacity(e'.maxHeap) == Arduino.Capacity(e.maxHeap)
    ensures Arduino.Capacity(e'.minHeap) == Arduino.Capacity(e.minHeap)
    ensures SizesClose(e) ==> SizesClose(e')
    ensures read.Some? ==> e'.median == read.value == Mean(Root(e'.maxHeap), Root(e'.minHeap))
    ensures read.None? ==> e' == e
    ensures e.median <= FloatMin as real ==> read.None?
  {
    var updated;
    e', updated := UpdateElement(e, oldElement, newElement);
    if updated {
      var current := CurrentMedian(e');
      e', read := current.0, Some(current.1);
    } else {
      read := None;
    }
  }

  /** The engine after the samples 1, 2 and 3 fed to a fresh engine of capacity 2: the
      left heap holds 1, the right heap 3 above 2, and the stored median is 2. */
  function OneTwoThree(): Engine {
    Engine(Arduino.Heap([1, FloatMin], MaxOrder, 0, 0), Arduino.Heap([2, 3], MinOrder, 1, 1), 2.0)
  }

  /** The engine after 1, 2 and 3 keeps the invariant and holds exactly those samples. */
  lemma OneTwoThreeKeepsInv()
    ensures Inv(OneTwoThree())
    ensures Arduino.Live(OneTwoThree().maxHeap) == multiset{1}
    ensures Arduino.Live(OneTwoThree().minHeap) == multiset{2, 3}
  {
    var e := OneTwoThree();
    assert e.maxHeap.heapArray[..1] == [1];
    assert e.minHeap.heapArray[..2] == [2, 3];
    assert ParentIndex(1) == 0;
  }

  /** The roots of the engine after 1, 2 and 3: 1 on the left, 2 on the right. */
  lemma RootsOfOneTwoThree()
    ensures Root(OneTwoThree().maxHeap) == 1.0 && Root(OneTwoThree().minHeap) == 2.0
    ensures RootMedian(OneTwoThree()) == 2.0
  {
  }

  /** For the samples 1, 2 and 3 the classical median is 2, but getMedian() as written
      returns the mean 1.5 of the roots 1 and 2; the corrected one returns 2. */
  lemma CurrentMedianOfOneTwoThree()
    ensures Median(Contents(OneTwoThree())) == 2.0
    ensures CurrentMedian(OneTwoThree()).1 == 1.5
    ensures CurrentMedianFixed(OneTwoThree()).1 == 2.0
  {
    var e := OneTwoThree();
    OneTwoThreeKeepsInv();
    RootsOfOneTwoThree();
    MedianIsClassical(e);
    assert CurrentMedian(e).1 == Mean(1.0, 2.0);
  }

  /** Two equal roots of balanced, non-empty heaps are one sample held twice, or a
      sample sitting opposite FLOAT_MIN. */
  lemma EqualRootsRepeat(e: Engine)
    requires Balanced(e) && |Contents(e)| > 0 && Root(e.maxHeap) == Root(e.minHeap)
    ensures Arduino.Size(e.maxHeap) > 0 && Arduino.Size(e.minHeap) > 0
    ensures multiset(Contents(e))[Arduino.Peek(e.maxHeap).value] >= 2
  {
    var v := Arduino.Peek(e.maxHeap).value;
    assert Arduino.Live(e.maxHeap)[v] >= 1 && Arduino.Live(e.minHeap)[v] >= 1;
  }

  /** getMedian(x) on an engine that is not full, with `t` the samples so far and `x`
      in sorted order: the result is the middle of `t`. */
  method FeedSorted(e: Engine, x: Int32, t: seq<int>) returns (e': Engine, r: real)
    requires Inv(e) && !Full(e) && |t| > 0 && IsSorted(t) && multiset(t) == multiset(Contents(e)) + multiset{x}
    ensures Inv(e') && multiset(Contents(e')) == multiset(t) && r == Middle(t) == Median(Contents(e'))
    ensures Arduino.Capacity(e'.maxHeap) == Arduino.Capacity(e.maxHeap) && Arduino.Capacity(e'.minHeap) == Arduino.Capacity(e.minHeap)
  {
    e', r := GetMedian(e, x);
    MedianOfSorted(Contents(e'), t);
  }

  /** A fresh engine of any capacity of at least 2 fed 1 and 2 reports the medians 1
      and 1.5. */
  method FeedOneTwo(capacity: nat) returns (e: Engine, r1: real, r2: real)
    requires capacity >= 2
    ensures Inv(e) && multiset(Contents(e)) == multiset{1, 2}
    ensures Arduino.Capacity(e.maxHeap) == capacity && Arduino.Capacity(e.minHeap) == capacity
    ensures r1 == 1.0 && r2 == 1.5
  {
    e := Create(capacity);
    e, r1 := FeedSorted(e, 1, [1]);
    e, r2 := FeedSorted(e, 2, [1, 2]);
  }

  /** ... then fed 3 it reports the median 2, and getMedian() then reports something
      other than 2. */
  method FeedOneTwoThree(capacity: nat) returns (e: Engine, r1: real, r2: real, r3: real, current: real)
    requires capacity >= 2
    ensures Inv(e) && multiset(Contents(e)) == multiset{1, 2, 3}
    ensures r1 == 1.0 && r2 == 1.5 && r3 == 2.0
    ensures current != r3
  {
    e, r1, r2 := FeedOneTwo(capacity);
    e, r3 := FeedSorted(e, 3, [1, 2, 3]);
    current := CurrentMedian(e).1;
    CurrentMedianMissesOneTwoThree(e);
  }

  /** Whatever balanced heaps hold the samples 1, 2 and 3, getMedian() as written misses
      their median: the sizes differ and the two roots are different samples. */
  lemma CurrentMedianMissesOneTwoThree(e: Engine)
    requires Balanced(e) && multiset(Contents(e)) == multiset{1, 2, 3}
    ensures CurrentMedian(e).1 != Median(Contents(e))
  {
    assert |Contents(e)| == |multiset{1, 2, 3}| == 3;
    if Root(e.maxHeap) == Root(e.minHeap) {
      EqualRootsRepeat(e);
    }
  }

  /** An engine keeping the invariant with 5 and 3 in the left heap, 9 and 10 in the
      right heap and the stored median 7, each heap last filled at its second slot. */
  function FiveThreeNineTen(): Engine {
    Engine(Arduino.Heap([5, 3], MaxOrder, 1, 1), Arduino.Heap([9, 10], MinOrder, 1, 1), 7.0)
  }

  lemma FiveThreeNineTenKeepsInv()
    ensures Inv(FiveThreeNineTen())
    ensures Arduino.Live(FiveThreeNineTen().maxHeap) == multiset{5, 3}
    ensures Arduino.Live(FiveThreeNineTen().minHeap) == multiset{9, 10}
  {
    var e := FiveThreeNineTen();
    PairHeap(e.maxHeap);
    PairHeap(e.minHeap);
    assert RootMedian(e) == Mean(5.0, 9.0);
  }

  /** A heap of two samples whose root is favoured over the other is ordered, holds
      those two and has the first as its root. */
  lemma PairHeap(h: Arduino.Heap)
    requires Arduino.Valid(h) && Arduino.Size(h) == 2 && Compare(h.comparator, h.heapArray[0], h.heapArray[1])
    ensures Arduino.HeapOrdered(h) && Root(h) == h.heapArray[0] as real
    ensures Arduino.Live(h) == multiset{h.heapArray[0], h.heapArray[1]}
  {
    assert ParentIndex(1) == 0;
    assert h.heapArray[..2] == [h.heapArray[0], h.heapArray[1]];
  }

  /** FiveThreeNineTen keeps the invariant and holds 5 at the root of its left heap,
      where updateElement(5, 1) looks for it; 1 in place of 5 leaves the left samples 1
      and 3, with 3 in the last slot, and all samples 1, 3, 9, 10. */
  lemma FiveThreeNineTenHoldsFive(e: Engine)
    requires e == FiveThreeNineTen()
    ensures Inv(e) && FloatMin as real < e.median && SameSide(e, 5, 1)
    ensures Home(e, 5) == e.maxHeap && 5 in Arduino.Live(e.maxHeap) && Arduino.Find(e.maxHeap, 5) == 0
    ensures Arduino.Live(e.maxHeap) - multiset{5} + multiset{1} == multiset{1, 3}
    ensures e.maxHeap.heapArray[0 := 1][e.maxHeap.currentIndex] == 3
    ensures multiset(Contents(e)) - multiset{5} + multiset{1} == multiset{1, 3, 9, 10}
  {
    FiveThreeNineTenKeepsInv();
    assert multiset(Contents(e)) == multiset{5, 3} + multiset{9, 10};
  }

  /** updateElement(5, 1) on that engine, then getMedian(): findAndUpdateElement writes
      1 into the root and its sift-down, bounded by the last live slot, leaves it there,
      so the left heap becomes [1, 3], out of order, and getMedian() reports the mean 5
      of the stale root 1 and 9, though the samples 1, 3, 9 and 10 have the median 6.
      The recursive heap's sift-up from the root leaves the same [1, 3]
      (RecursiveHeap.UpdateOfRootLosesOrder). */
  method UpdateFiveToOne() returns (e': Engine, updated: bool, current: real)
    ensures WellFormed(e') && |e'.maxHeap.heapArray| == 2
    ensures updated && multiset(Contents(e')) == multiset{1, 3, 9, 10}
    ensures e'.maxHeap.heapArray[..2] == [1, 3] && !Arduino.HeapOrdered(e'.maxHeap)
    ensures current == CurrentMedian(e').1 == 5.0
    ensures Median(Contents(e')) == 6.0
  {
    var e := FiveThreeNineTen();
    FiveThreeNineTenHoldsFive(e);
    e', updated := UpdateElement(e, 5, 1);
    StaleLeftRoot(e'.maxHeap);
    StaleMedians(e');
    current := CurrentMedian(e').1;
  }

  /** The engine updateElement(5, 1) leaves: its samples have the median 6, while the
      mean of its roots 1 and 9 is 5. */
  lemma StaleMedians(e: Engine)
    requires WellFormed(e) && e.minHeap == FiveThreeNineTen().minHeap
    requires Arduino.Size(e.maxHeap) == 2 && e.maxHeap.heapArray[..2] == [1, 3] && Root(e.maxHeap) == 1.0
    ensures Contents(e) == [1, 3, 9, 10]
    ensures CurrentMedian(e).1 == 5.0 && Median(Contents(e)) == 6.0
  {
    assert e.minHeap.heapArray[..2] == [9, 10];
    assert CurrentMedian(e).1 == Mean(1.0, 9.0);
    MedianOfOneThreeNineTen(Contents(e));
  }

  /** A max-heap of two samples, 1 and 3, with 3 in its last slot: 1 is at the root
      and the heap is out of order. */
  lemma StaleLeftRoot(h: Arduino.Heap)
    requires Arduino.Valid(h) && h.comparator == MaxOrder && Arduino.Size(h) == 2
    requires Arduino.Live(h) == multiset{1, 3} && h.heapArray[1] == 3
    ensures h.heapArray[..2] == [1, 3] && !Arduino.HeapOrdered(h) && Root(h) == 1.0
  {
    var left := h.heapArray[..2];
    assert left == [left[0]] + [left[1]];
    assert multiset(left) == multiset{left[0]} + multiset{3};
    assert left[0] == 1;
    assert ParentIndex(1) == 0;
  }

  /** Any sequence holding 1, 3, 9 and 10 has the median 6. */
  lemma MedianOfOneThreeNineTen(s: seq<int>)
    requires multiset(s) == multiset{1, 3, 9, 10}
    ensures |s| == 4 && Median(s) == 6.0
  {
    MedianOfFour(s, 1, 3, 9, 10);
    assert Mean(3.0, 9.0) == 6.0;
  }

  /** Four samples in order a, b, c, d have the median the mean of b and c. */
  lemma MedianOfFour(s: seq<int>, a: int, b: int, c: int, d: int)
    requires a <= b <= c <= d && multiset(s) == multiset{a, b, c, d}
    ensures |s| == 4 && Median(s) == Mean(b as real, c as real)
  {
    var t := [a, b, c, d];
    assert IsSorted(t) by {
      forall i, j | 0 <= i < j < 4
        ensures t[i] <= t[j]
      {
      }
    }
    assert multiset(t) == multiset(s);
    MedianOfSorted(s, t);
    assert Middle(t) == Mean(t[1] as real, t[2] as real);
  }

  /** An engine whose samples are split but whose stored median 7 is stale: the left
      heap holds 8 and 3, the right heap 9 and 10. These are the live halves a cross
      update of 5 to 8 leaves behind from left [5, 3], right [9, 10] and median 7 when
      each heap has a spare slot, shown here on capacity-2 heaps; updateElement never
      refreshes the median. */
  function EightThreeNineTen(): Engine {
    Engine(Arduino.Heap([8, 3], MaxOrder, 1, 1), Arduino.Heap([9, 10], MinOrder, 1, 1), 7.0)
  }

  /** updateElement(9, 7) on that engine: both lie at or above the stale median 7, so 9
      is overwritten by 7 in the right heap while 8 stays on the left, and the samples
      are no longer split. Separation therefore holds only from the invariant. */
  method UpdateEightThreeNineTen() returns (e: Engine, e': Engine, updated: bool)
    ensures e == EightThreeNineTen() && Split(e) && !Inv(e)
    ensures WellFormed(e') && updated
    ensures 8 in Arduino.Live(e'.maxHeap) && 7 in Arduino.Live(e'.minHeap) && !Split(e')
  {
    e := EightThreeNineTen();
    EightThreeNineTenIsSplit();
    e', updated := UpdateElement(e, 9, 7);
    assert 7 in Arduino.Live(e'.minHeap);
  }

  /** EightThreeNineTen is split, and its stale median is not the one its roots give. */
  lemma EightThreeNineTenIsSplit()
    ensures Split(EightThreeNineTen()) && !Inv(EightThreeNineTen())
    ensures Arduino.Live(EightThreeNineTen().maxHeap) == multiset{8, 3}
    ensures Arduino.Live(EightThreeNineTen().minHeap) == multiset{9, 10}
  {
    var e := EightThreeNineTen();
    PairHeap(e.maxHeap);
    PairHeap(e.minHeap);
    assert RootMedian(e) == Mean(8.0, 9.0);
  }

  /** updateElement(5, 1) on FiveThreeNineTen with the order-keeping same-side path: the
      engine stays balanced and getMedian() reports the median 6 of 1, 3, 9 and 10. */
  method UpdateFiveToOneFixed() returns (e': Engine, updated: bool, current: real)
    ensures WellFormed(e')
    ensures updated && multiset(Contents(e')) == multiset{1, 3, 9, 10} && Balanced(e')
    ensures current == CurrentMedian(e').1 == Median(Contents(e')) == 6.0
  {
    var e := FiveThreeNineTen();
    FiveThreeNineTenKeepsInv();
    FiveThreeNineTenHoldsFive(e);
    e', updated := UpdateElementFixed(e, 5, 1);
    CurrentMedianOfOneThreeNineTen(e');
    current := CurrentMedian(e').1;
  }

  /** Balanced heaps holding 1, 3, 9 and 10 have two samples each, so getMedian() reports
      their median 6. */
  lemma CurrentMedianOfOneThreeNineTen(e: Engine)
    requires Balanced(e) && multiset(Contents(e)) == multiset{1, 3, 9, 10}
    ensures CurrentMedian(e).1 == Median(Contents(e)) == 6.0
  {
    MedianOfOneThreeNineTen(Contents(e));
    assert Arduino.Size(e.maxHeap) + Arduino.Size(e.minHeap) == 4;
    assert Arduino.Size(e.maxHeap) == 2 == Arduino.Size(e.minHeap);
  }
}
